=== FILE: README.md ===
# Particle text emitter: a Dafny model of its core

The component draws a text string as a cloud of particles. A React hook,
`useProtonEmitter`, owns a particle engine and a single emitter. It renders the
text to an SVG image, loads that image and samples the drawn pixels to get
target points. `configureEmitter` then attaches two behaviours to the emitter:
a colour palette and one of two animations. In `fadeIn`, particles ease
towards their text points. In `fadeOut`, particles orbit their text points
until triggered, then drift in a random direction and die at the canvas edge. Each
animation comes with `initialize`, `trigger` and `reset` handlers, which the
hook exposes as `triggerAnimation` and `resetAnimation`.

The model has five modules:

- `Helpers` (helpers.dfy): `clamp`, plus the font-size rule that fits the text
  to the canvas. JavaScript division is modelled with its `Infinity` and
  `NaN` results.
- `Behaviours` (behaviours.dfy): the `initialize` and `applyBehaviour` of both
  animations, acting on a particle record. `Math.random` draws, the sampled
  text point, and `Math.cos`, `Math.sin` and `Math.sqrt` are inputs.
- `Handlers` (handlers.dfy): the three handlers of each animation, acting on
  the emitter's particle collection.
- `Configure` (configure.dfy): the palette extraction, the spawn rectangle and
  what `configureEmitter` adds to the emitter. This includes the `TypeError`
  thrown by a `null` or `undefined` palette entry and the `IndexSizeError`
  that `getImageData` throws on a canvas of zero width or height.
- `Controller` (controller.dfy): the hook's lifecycle as a state machine over
  its refs and flags. The events are mount, config change, resize, image
  load resolved or rejected, frame tick, trigger, reset and cleanup. An
  invariant holds in every reachable state. Scenario lemmas show how the hook
  behaves when a load is stale, when the component remounts, when the
  stale subscription flag stays set, and when the canvas is resized to zero
  width.

Some behaviour of the code worth knowing:

- fadeIn has no arrival test and never fades particles.
- No load carries a generation number, so a stale load still reconfigures
  the emitter (`Controller.StaleLoadDoublesBehaviours`).
- The fadeOut reset runs its per-particle writes right after
  `removeAllParticles`. With that call modelled as emptying the collection,
  the writes reach no particle (`Handlers.FadeOutResetWritesNothing`).
- A load that completes on a canvas with zero width or height unregisters
  the emitter and then throws. It adds no spawn zone and starts no loop.
  `isInitialized` and the stored handlers are left as they were. After the
  first commit the component therefore stays uninitialised
  (`Controller.BlankCanvasLeavesEmitterUnregistered`). An initialised
  component keeps handlers for an emitter the engine no longer holds
  (`Controller.BlankCanvasKeepsStaleHandlers`).

## Model

| member | source | states |
|---|---|---|
| Helpers.Clamp | src/hooks/helpers.ts:77-78 | The result never exceeds `max`. It is at least `min` when the interval is non-empty. A value already inside is unchanged. The result is always one of value, min or max. |
| Helpers.ClampIdempotent | src/hooks/helpers.ts:77-78 | Clamping an already clamped value changes nothing. |
| Helpers.ClampInverted | src/hooks/helpers.ts:77-78 | When `max < min`, the outer `Math.min` wins and the result is `max`. |
| Helpers.ClampIsNearest | src/hooks/helpers.ts:77-78 | On a non-empty interval the result lies in it and is at least as close to the value as any point of the interval. |
| Helpers.Divide | src/hooks/helpers.ts:43-44 | The JavaScript quotient of two non-negative sizes is finite exactly when the divisor is positive, and then it times the divisor gives the dividend. It is NaN exactly for 0/0. |
| Helpers.FontSize | src/hooks/helpers.ts:43-54 | The chosen font size never exceeds 80% of the canvas height. |
| Helpers.FontSizeBranches | src/hooks/helpers.ts:48-54 | With positive heights, a text wider in proportion than the canvas gets 0.8·width/ratio. Any other text gets 0.8·height. |
| Helpers.FontSizeIsLargestFit | src/hooks/helpers.ts:43-54 | For positive sizes, text at the chosen size fits within 80% of both canvas dimensions. The size equals whichever of the two bounds is smaller, so no larger size fits. |
| Helpers.WidthBranchFit | src/hooks/helpers.ts:48-50 | In the width branch, the text's width fills 80% of the canvas width and its height stays strictly below 80% of the canvas height. |
| Helpers.HeightBranchFit | src/hooks/helpers.ts:51-53 | In the height branch, the height bound is the smaller of the two bounds. |
| Helpers.FontSizeEmptyText | src/hooks/helpers.ts:43-54 | An empty text, measuring 0×0, makes the ratio NaN. The comparison then fails and the size is 0.8·height. |
| Helpers.FontSizeFlatCanvas | src/hooks/helpers.ts:43-54 | A canvas of height 0 gives font size 0 whatever the text. |
| Helpers.FontSizeScalesWithCanvas | src/hooks/helpers.ts:43-54 | Scaling the canvas by k > 0 keeps the canvas ratio, so the same branch is taken, and scales the font size by k. |
| Helpers.FontSizeDependsOnTextRatio | src/hooks/helpers.ts:43 | Scaling the measured text box by k > 0 leaves the font size unchanged. |
| Helpers.DivideScales | src/hooks/helpers.ts:43-44 | Scaling both operands of a JavaScript division by k > 0 keeps its value, including Infinity and NaN. |
| Behaviours.OrbitCap | src/hooks/configureEmitter.ts:22-23 | The orbit radius cap lies between 0 and 9. It is at most width/150 and equals one of those two bounds. |
| Behaviours.PlaceOnText | src/hooks/configureEmitter.ts:20-42 | The text point is the sample clamped into the canvas on each axis separately. A coordinate inside its range is kept, one below 0 becomes 0, and one beyond the width or height becomes that edge. For draws in [0, 1) the radius lies in [0, cap], strictly below cap on a non-empty canvas, and the angle lies in [0, 2π). The size is 0.2·radius and alpha is 1. No other field changes. |
| Behaviours.FadeInInitialize | src/hooks/configureEmitter.ts:20-42 | fadeIn placement, plus velocity·100 = speed and spreadFactor 0. The position, the dead flag and the spread flag are kept. |
| Behaviours.FadeInApply | src/hooks/configureEmitter.ts:43-56 | The angle advances by 0.02. Each coordinate moves the velocity fraction of the way to the orbit point. Only the angle and the position change. |
| Behaviours.FadeInNoOvershoot | src/hooks/configureEmitter.ts:53-55 | With velocity in (0, 1], a tick moves each coordinate towards its target without passing it. |
| Behaviours.FadeInStaticStep | src/hooks/configureEmitter.ts:43-56 | With orbit radius 0, one tick multiplies the gap to the text point by (1 − velocity) on each axis. |
| Behaviours.FadeInGapDecays | src/hooks/configureEmitter.ts:43-56 | With orbit radius 0, n ticks shrink each axis' gap by (1 − velocity) n times, and the angle advances by 0.02·n. |
| Behaviours.DecayIsPow | src/hooks/configureEmitter.ts:54-55 | Shrinking a gap n times by f multiplies it by fⁿ. |
| Behaviours.FadeInStaysInBand | src/hooks/configureEmitter.ts:43-56 | One tick never takes a coordinate farther from the text point than the larger of its previous distance and the orbit radius. |
| Behaviours.FadeInTicksStayInBand | src/hooks/configureEmitter.ts:43-56 | The same band holds after any number of ticks. |
| Behaviours.FadeOutInitialize | src/hooks/configureEmitter.ts:69-99 | fadeOut placement. For draws in [0, 1) the spread direction lies in [-1, 1)² and the angle offset in [-π/2, π/2). Position, velocity, spread flag, spread factor and dead flag are kept. |
| Behaviours.JitterOf | src/hooks/configureEmitter.ts:115-117 | A draw in [0, 1) gives a jitter in [-0.05, 0.05). |
| Behaviours.FadeOutApply | src/hooks/configureEmitter.ts:100-141 | The angle advances by 0.02. An orbiting particle is placed exactly on its orbit point and keeps its dead flag. A spreading particle is dead afterwards exactly when it was dead already or now stands on or beyond a canvas edge. |
| Behaviours.FadeOutOrbitIgnoresPosition | src/hooks/configureEmitter.ts:132-140 | An orbiting particle's next state does not depend on its current position. |
| Behaviours.FadeOutOrbitWithinRadius | src/hooks/configureEmitter.ts:132-140 | An orbiting particle stays within its orbit radius of its text point on each axis. |
| Behaviours.SpreadZeroDirection | src/hooks/configureEmitter.ts:105-121 | A spreading particle with direction (0, 0) has magnitude 0, so it does not move. |
| Behaviours.SpreadDirectionHasLength | src/hooks/configureEmitter.ts:105-110 | A non-zero direction has a positive magnitude, so the move branch runs. |
| Behaviours.SpreadMovesAlongDirection | src/hooks/configureEmitter.ts:105-121 | With a non-zero direction, both normalised components lie in [-1, 1], and the particle moves by (normalised direction + jitter)·speed. |
| Behaviours.SpreadMove | src/hooks/configureEmitter.ts:105-121 | A spread direction of zero length leaves the position unchanged. |
| Behaviours.SpreadMoveBounded | src/hooks/configureEmitter.ts:105-121 | For draws in [0, 1), the spread move changes each coordinate by at most 1.05·speed. |
| Behaviours.SpreadStepBounded | src/hooks/configureEmitter.ts:103-121 | For draws in [0, 1), a spreading tick moves each coordinate by at most 1.05·speed. |
| Behaviours.FadeOutOrbitTicks | src/hooks/configureEmitter.ts:100-141 | Before the trigger, after any number of ticks the particle still orbits, is alive or dead as before, and stays within its orbit radius of the text point. Its angle has advanced by 0.02 per tick. |
| Behaviours.FadeOutDeathIsFinal | src/hooks/configureEmitter.ts:123-131 | Once dead, a particle stays dead through any number of ticks. |
| Handlers.ForEach | src/hooks/configureEmitter.ts:165-169 | `forEach` keeps the collection's length and replaces each particle by the callback's result. |
| Handlers.Handle | src/hooks/configureEmitter.ts:145-181 | Net effect of each handler. fadeIn: initialize keeps the collection, trigger leaves exactly the new batch, reset empties it. fadeOut: initialize appends the batch. fadeOut trigger sets the spread flag, spread factor 0 and alpha 1 on every particle, changing nothing else. fadeOut reset leaves exactly the new batch. |
| Handlers.TriggerIdempotent | src/hooks/configureEmitter.ts:163-170 | The fadeOut trigger emits nothing, so triggering it twice equals triggering it once, whatever batch either call has. |
| Handlers.FadeInTriggerRestarts | src/hooks/configureEmitter.ts:148-152 | The fadeIn trigger's result does not depend on the prior collection. A second trigger replaces the first one's particles with its own fresh batch. |
| Handlers.ResetForgetsCollection | src/hooks/configureEmitter.ts:153-156 | A reset's result does not depend on the collection it starts from. |
| Handlers.ResetUndoesTrigger | src/hooks/configureEmitter.ts:148-180 | A reset after a trigger equals a plain reset. |
| Handlers.FadeOutResetWritesNothing | src/hooks/configureEmitter.ts:171-180 | With `removeAllParticles` taken as an immediate empty, the new particles keep the spread flag, spread factor and alpha they arrived with after the fadeOut reset. |
| Handlers.FadeOutTriggerThenTickSpreads | src/hooks/configureEmitter.ts:163-169 | After the fadeOut trigger, every particle takes the spreading branch on its next tick. |
| Configure.DropNull | src/hooks/configureEmitter.ts:235 | The filter removes exactly the `null` values, so `undefined` survives, and it never lengthens the list. |
| Configure.DropNullAppend | src/hooks/configureEmitter.ts:235 | Filtering distributes over concatenation, so the kept values stay in order. |
| Configure.DropNullKeepsNonNull | src/hooks/configureEmitter.ts:235 | A list without `null` passes the filter unchanged. |
| Configure.ColorValues | src/hooks/configureEmitter.ts:235 | The `map` succeeds exactly when no element is `null` or `undefined`. It then yields each element's `color`, position by position. |
| Configure.Palette | src/hooks/configureEmitter.ts:233-236 | A non-array gives `['#00aeff']` and an empty array gives an empty palette. An array throws exactly when some element is `null` or `undefined`. Otherwise the palette holds exactly the non-null colours present. |
| Configure.PaletteOfPlainColors | src/hooks/configureEmitter.ts:233-236 | Entries with non-null colours give exactly their colours, in order. |
| Configure.PaletteAppend | src/hooks/configureEmitter.ts:233-236 | The palette of a concatenation is the concatenation of the palettes. |
| Configure.SpawnRect | src/hooks/configureEmitter.ts:209-213 | The spawn rectangle is at least 100 wide and 100 high. |
| Configure.SpawnRectIsGrownCanvas | src/hooks/configureEmitter.ts:209-228 | A point lies in the spawn zone exactly when it lies within 50 of the canvas on every side. Every canvas point is in the zone. |
| Configure.ConfigureEmitter | src/hooks/configureEmitter.ts:184-249 | On a canvas of zero width or height, `getImageData` throws before anything is added, so the emitter is unchanged. Otherwise the spawn zone is appended. The call succeeds exactly when the canvas has pixels and the palette succeeds. It then appends the colour behaviour and the animation behaviour, in that order, after the existing ones. A throw leaves the behaviours as they were. The id and particles are kept. |
| Configure.ConfigureClearedEmitter | src/hooks/useProtonEmitter.tsx:73-98 | On a canvas with pixels and a valid palette, an emitter just emptied by `emitParticles` ends up with one spawn zone and exactly the two behaviours. On a canvas of zero width or height the call throws and the emitter stays empty. With a `null` or `undefined` palette entry it throws after the zone is added, leaving one zone and no behaviour. |
| Controller.MountEffect | src/hooks/useProtonEmitter.tsx:113-146 | With a parent element: a fresh engine with no emitters, a fresh empty emitter, an observer and a registered cleanup. Without one, nothing changes. Nothing besides the engine, the emitter, the observer, the cleanup and the handle counter changes: loops, flag, URLs, handlers, initialisation and pending loads are kept. |
| Controller.Release | src/hooks/useProtonEmitter.tsx:60-69 | Exactly the stored URL is revoked. The stored frame is cancelled when the flag is set, and no loop is touched when it is clear. The flag is cleared and nothing else changes. |
| Controller.EmitParticles | src/hooks/useProtonEmitter.tsx:56-110 | The flag is cleared and no loop is added. With an emitter, it empties the emitter, stores and keeps live a fresh URL and starts one more load. Without one, it throws after the revocation and cancellation. The loops left are exactly those `Release` leaves. Only the URLs, loops, flag, emitter, stored URL, pending loads and handle counter change. |
| Controller.Unregister | src/hooks/useProtonEmitter.tsx:85 | After `removeEmitter`, the registration list holds exactly the other ids. |
| Controller.Subscribe | src/hooks/useProtonEmitter.tsx:45-51 | Subscribing schedules one new frame and stores it in the frame ref. Nothing else changes. When every live handle is below the counter, the new handle is fresh and the set of loops grows by exactly one. |
| Controller.ImageLoaded | src/hooks/useProtonEmitter.tsx:84-109 | A settled load with a null engine changes nothing else. When `configureEmitter` succeeds, the configured emitter is registered again at the end and holds what `initialize` made of its particles. The handlers become those of the configured animation for that emitter, and the component is initialised. The flag is set, and a loop starts only when the flag was clear. When `configureEmitter` throws, the emitter stays unregistered as the throw left it, and handlers, initialisation, loops and flag are unchanged. The URLs, the cleanup, the observer, the canvas and the settings never change. |
| Controller.Ready | src/hooks/useProtonEmitter.tsx:100-103 | The handlers of the configured animation for the configured emitter are stored, the emitter is registered once more at the end of the engine's list, and the component is initialised. Loops, flag and frame are untouched. |
| Controller.StartLoop | src/hooks/useProtonEmitter.tsx:105-108 | The flag is set afterwards. If it was set already, nothing changes. Otherwise exactly one fresh loop is added and its frame stored. |
| Controller.FrameTick | src/hooks/useProtonEmitter.tsx:45-51 | A cancelled frame does nothing. A live one is consumed and schedules a fresh frame when the engine exists; with a null engine the loop ends. Only the loops, the frame ref and the handle counter change. |
| Controller.RunHandler | src/hooks/useProtonEmitter.tsx:194-203 | Nothing happens unless the component is initialised and handlers are stored. Only the emitter can change. The handler changes the current emitter only when that emitter is the one the handler was created for. |
| Controller.TeardownEffect | src/hooks/useProtonEmitter.tsx:148-167 | The cleanup destroys the engine, disconnects the observer, revokes the URL and cancels the frame, nulling each ref. It keeps the flag, the emitter, the handlers, the pending loads, the canvas and the settings: only the engine, observer, URLs, frame, loops and cleanup change. Without a registered cleanup it does nothing. |
| Controller.PixelSize | src/hooks/useProtonEmitter.tsx:137-138 | Assigning a size to the canvas keeps its whole number of pixels: the result is an integer at most the size and within 1 of it. |
| Controller.Step | src/hooks/useProtonEmitter.tsx:130-141 | A resize does nothing without an observer callback. Otherwise it stores the truncated size, clears the flag and, with an emitter, starts one more load. A rejected load only settles one pending load. A completion with no load pending changes nothing. |
| Controller.StartSatisfiesInv | src/hooks/useProtonEmitter.tsx:113-190 | The state after the first commit satisfies the invariant. |
| Controller.StepPreservesInv | src/hooks/useProtonEmitter.tsx:45-203 | Every event preserves the invariant. Every scheduled frame is the stored one. A running loop implies the flag. The only live URL is the stored one. The engine holds at most the current emitter. Handlers are stored exactly when initialised. |
| Controller.EmitParticlesPreservesInv | src/hooks/useProtonEmitter.tsx:56-82 | Reloading preserves the invariant. |
| Controller.ImageLoadedPreservesInv | src/hooks/useProtonEmitter.tsx:84-109 | A load completing preserves the invariant. |
| Controller.AfterConfigureInv | src/hooks/useProtonEmitter.tsx:87-108 | The invariant survives the rest of the load whether `configureEmitter` returns or throws. |
| Controller.ReadyInv | src/hooks/useProtonEmitter.tsx:100-103 | Re-registering the configured emitter and storing its handlers preserves the invariant. |
| Controller.StartLoopInv | src/hooks/useProtonEmitter.tsx:105-108 | Starting the loop behind the flag preserves the invariant. |
| Controller.FrameTickPreservesInv | src/hooks/useProtonEmitter.tsx:45-51 | A frame tick preserves the invariant. |
| Controller.MountPreservesInv | src/hooks/useProtonEmitter.tsx:113-146 | The mount effect preserves the invariant. |
| Controller.RunHandlerPreservesInv | src/hooks/useProtonEmitter.tsx:194-203 | Triggering or resetting the animation preserves the invariant. |
| Controller.TeardownPreservesInv | src/hooks/useProtonEmitter.tsx:148-167 | The cleanup preserves the invariant. |
| Controller.RunPreservesInv | src/hooks/useProtonEmitter.tsx:45-203 | Any sequence of events preserves the invariant. |
| Controller.AtMostOneLoop | src/hooks/useProtonEmitter.tsx:45-167 | After any events following the first commit: at most one frame loop is live, and a live loop implies the flag. At most one object URL is unrevoked, and the engine holds at most one emitter. |
| Controller.TeardownIdempotent | src/hooks/useProtonEmitter.tsx:148-167 | Running the cleanup twice is running it once. |
| Controller.TeardownStopsEverything | src/hooks/useProtonEmitter.tsx:148-167 | From any reachable state the cleanup leaves no live loop and no live URL, but keeps the flag. |
| Controller.HandlersNeedInitialisation | src/hooks/useProtonEmitter.tsx:194-203 | Trigger and reset are no-ops unless the component is initialised and handlers are stored. |
| Controller.RunPrefix | src/hooks/useProtonEmitter.tsx:45-203 | Running a concatenation of event sequences runs the first part, then the second. |
| Controller.StaleLoadDoublesBehaviours | src/hooks/useProtonEmitter.tsx:84-109 | Two loads in flight both configure the same emitter, leaving two spawn zones and four behaviours. |
| Controller.LoadAddsZoneAndBehaviours | src/hooks/useProtonEmitter.tsx:84-109 | Every load that completes on a canvas with pixels and a valid palette adds one spawn zone and two behaviours to the emitter, whatever it already holds. It initialises the component and sets the flag. It starts one loop only when the flag was clear, and leaves the loops alone otherwise. |
| Controller.ResizeToSameSize | src/hooks/useProtonEmitter.tsx:130-141 | A resize to the size the canvas already has still empties the emitter, clears the flag and starts a second load. |
| Controller.TriggerAfterRemountMissesEmitter | src/hooks/useProtonEmitter.tsx:113-203 | After the cleanup and remount caused by `isInitialized` changing, the stored handlers belong to the old emitter. Triggering then leaves the state unchanged. |
| Controller.LoadThenTeardownKeepsFlag | src/hooks/useProtonEmitter.tsx:148-167 | A completed load followed by the cleanup leaves no loop running but the flag still set, with the second load still pending. |
| Controller.RemountWithStaleFlag | src/hooks/useProtonEmitter.tsx:84-109 | With the flag set and no loop running, a remount and a completed load initialise the component without starting a loop. |
| Controller.StaleFlagSuppressesLoop | src/hooks/useProtonEmitter.tsx:105-167 | The cleanup cancels the loop but keeps the flag. A load that completes after the remount initialises the component with no loop running. |
| Controller.BlankCanvasLeavesEmitterUnregistered | src/hooks/useProtonEmitter.tsx:84-108 | Right after the first commit, a resize to less than one pixel of width and the next completed load leave the engine with no emitter, the emitter with no spawn zone and no loop. Nothing sets handlers or `isInitialized`, so the component stays uninitialised. |
| Controller.BlankCanvasKeepsStaleHandlers | src/hooks/useProtonEmitter.tsx:84-108 | The same resize and load on an initialised component leave the emitter unregistered and no loop running. The component stays initialised, with handlers for an emitter the engine no longer holds. |

## Left out

- The engine's internals are not modelled: `ImageZone` sampling, `Rate`/`Span`, the `Color` behaviour's blending, the canvas renderer, particle pooling and `emit('once')`'s particle count. A sampled text point and an emitted batch are inputs.
- `removeEmitter` of an emitter that is not registered is not modelled. The engine's `splice(indexOf(e), 1)` would then remove the last emitter. The invariant keeps the engine's list to `[]` or `[current emitter]`, so only `Unregister`'s filtering matters.
- `initializeProton`, `loadImage`, `createSvgText`'s SVG markup, the Blob and object URLs, `drawImage`, `getImageData` and `clearRect` are DOM and canvas I/O. URLs and frame handles are fresh naturals.
- `setFontSize` is left out. The font-size rule is modelled on its own in `Helpers`.
- Controller.EmitParticles: stores the object URL that `createSvgText` creates. The code does not: `createSvgText` returns a bare string (src/hooks/helpers.ts:73), so `const {url, fontSize} = ...` (src/hooks/useProtonEmitter.tsx:79) stores `undefined` and leaks one object URL per call. It also hands `undefined` to `loadImage`, whose image then requests the relative address `undefined`; unless a server answers that with an image, the load is rejected, which is the model's `LoadFailed` event. The URL clauses of `Controller.EmitParticles`, `Controller.AtMostOneLoop` and `Controller.TeardownStopsEverything` therefore describe the evidently intended wiring only.
- Controller.AtMostOneLoop: its clause that at most the stored URL is unrevoked holds only for the intended URL wiring described under `Controller.EmitParticles`. The code stores `undefined` and never revokes what it creates.
- Controller.TeardownStopsEverything: its clause that no URL stays live holds only for the intended URL wiring described under `Controller.EmitParticles`. In the code every created URL stays live.
- Handlers.FadeOutResetWritesNothing: holds only under the `Clear` abstraction, which treats `removeAllParticles` as emptying the collection at once. The engine's implementation is not part of this model. If it only marks particles dead and removes them on the next update, the reset's `forEach` does write to them.
- Controller.PixelSize: drops the fraction of a size but does not model the 32-bit wrap-around of the canvas's `unsigned long` width and height, which needs sizes beyond 4 294 967 295 pixels.
- `configureEmitter` reads `particles`, while the hook passes `particleAmount`. The emission count is left abstract as the batch input.
- `Math.random`, `Math.cos`, `Math.sin` and `Math.sqrt` are parameters. The properties assume draws in [0, 1), cos and sin in [-1, 1], and an exact square root. IEEE-754 rounding is not modelled: numbers are exact reals.
- Timing is not modelled: the 150 ms debounce, the `ResizeObserver` callback order and `requestAnimationFrame` scheduling. Each becomes an event that may occur in any order.
- The text, colours and the other settings that reach the controller only as `configRef` are a single `Settings` value. `onAnimationEnd` is passed along but never called by the code, so it is absent.
- The `isInitialized` value captured by the returned closures is read from the current state, not from a stale render.
- The engine's own `update` inside a frame tick does not move particles in the controller. Particle motion is modelled per tick in `Behaviours`.
- `App.tsx` and `interfaces.ts` are not part of this model.
- Behaviours.SpreadMovesAlongDirection: does not state that the normalised direction has length 1, only that each component lies in [-1, 1]. The per-axis step bound `SpreadStepBounded` is stated instead.
- Behaviours.FadeInGapDecays: states convergence as n shrinking steps, not as one closed form. `DecayIsPow` turns the steps into the factor (1 − velocity)ⁿ.

=== FILE: behaviours.dfy ===
/** The two per-particle behaviours of `animationTypeToBehaviour`
    (src/hooks/configureEmitter.ts): `fadeIn`, an eased orbit around a point
    sampled from the text, and `fadeOut`, a rigid orbit that turns into a
    straight drift off the canvas once the particle is told to spread.

    Each behaviour is a pair of pure steps on a particle record. The random
    draws, the point the text zone returns and `Math.cos`/`Math.sin`/
    `Math.sqrt` are inputs; arithmetic is over `real`. */
module Behaviours {
  import opened Helpers

  /** Angle added to a particle's orbit angle on every tick. */
  const AngleIncrement: real := 0.02

  /** Upper bound on a particle's orbit radius. */
  const MaxOrbitRadius: real := 9.0

  /** `Math.PI`. */
  const Pi: real := 3.141592653589793

  /** Width of the per-axis jitter added to a spreading particle's direction. */
  const Randomness: real := 0.1

  datatype Vec = Vec(x: real, y: real)

  /** The canvas the behaviours were configured for. */
  datatype Canvas = Canvas(width: NonNeg, height: NonNeg)

  /** What a behaviour closes over: the configured base radius and speed and
      the canvas. */
  datatype Setup = Setup(radius: real, speed: real, canvas: Canvas)

  /** A particle as the behaviours see it: the engine's position `p`,
      `radius`, `alpha` and `dead`, plus the scratch fields the behaviours
      attach to it. */
  datatype Particle = Particle(
    p: Vec,
    radius: real,
    alpha: real,
    dead: bool,
    R: real,                  // orbit radius
    angle: real,              // orbit angle (`Angle` in the source)
    textPosition: Vec,        // the sampled text point, clamped to the canvas
    velocity: real,           // easing factor (fadeIn only)
    spreadFactor: real,
    randomAngleOffset: real,  // fadeOut only; never read
    sinusoidalOffset: real,   // fadeOut only; never read
    randomDirection: Vec,     // fadeOut only: direction of the spread
    shouldSpread: bool        // fadeOut only: set by the trigger handler
  )

  /** `Math.cos`, `Math.sin` and `Math.sqrt`, passed in. */
  datatype Maths = Maths(cos: real -> real, sin: real -> real, sqrt: real -> real)

  /** What the orbit proofs need of `Math.cos` and `Math.sin`. */
  ghost predicate TrigBounded(m: Maths)
  {
    forall a :: -1.0 <= m.cos(a) <= 1.0 && -1.0 <= m.sin(a) <= 1.0
  }

  /** What the spread proofs need of `Math.sqrt`. */
  ghost predicate SqrtSound(m: Maths)
  {
    && (forall x :: 0.0 <= x ==> 0.0 <= m.sqrt(x) && m.sqrt(x) * m.sqrt(x) == x)
    && m.sqrt(0.0) == 0.0
    && (forall x :: 0.0 < x ==> 0.0 < m.sqrt(x))
  }

  /** A value `Math.random()` can return. */
  predicate IsDraw(r: real) { 0.0 <= r < 1.0 }

  predicate InCanvas(c: Canvas, pt: Vec)
  {
    0.0 <= pt.x <= c.width && 0.0 <= pt.y <= c.height
  }

  /** The spreading particle's death test: on or beyond any canvas edge. */
  predicate OnOrBeyondEdge(c: Canvas, pt: Vec)
  {
    pt.x <= 0.0 || pt.x >= c.width || pt.y <= 0.0 || pt.y >= c.height
  }

  /** `Math.min(MAX_ORBIT_RADIUS, canvas.width / 150)`. */
  function OrbitCap(c: Canvas): (cap: real)
    ensures 0.0 <= cap <= MaxOrbitRadius
    ensures cap <= c.width / 150.0
    ensures cap == MaxOrbitRadius || cap == c.width / 150.0
  {
    Min(MaxOrbitRadius, c.width / 150.0)
  }

  /** The point on the orbit of radius `R` around `centre` at angle `a`. */
  function OrbitPoint(m: Maths, centre: Vec, R: real, a: real): Vec
  {
    Vec(centre.x + R * m.cos(a), centre.y + R * m.sin(a))
  }

  /** The part both initializers share: orbit radius and angle from two draws,
      the sampled text point clamped to the canvas, radius and alpha. */
  function PlaceOnText(s: Setup, sample: Vec, radiusDraw: real, angleDraw: real, q: Particle): (r: Particle)
    ensures InCanvas(s.canvas, r.textPosition)
    ensures InCanvas(s.canvas, sample) ==> r.textPosition == sample
    ensures 0.0 <= sample.x <= s.canvas.width ==> r.textPosition.x == sample.x
    ensures sample.x < 0.0 ==> r.textPosition.x == 0.0
    ensures sample.x > s.canvas.width ==> r.textPosition.x == s.canvas.width
    ensures 0.0 <= sample.y <= s.canvas.height ==> r.textPosition.y == sample.y
    ensures sample.y < 0.0 ==> r.textPosition.y == 0.0
    ensures sample.y > s.canvas.height ==> r.textPosition.y == s.canvas.height
    ensures IsDraw(radiusDraw) ==> 0.0 <= r.R <= OrbitCap(s.canvas)
    ensures IsDraw(radiusDraw) && s.canvas.width > 0.0 ==> r.R < OrbitCap(s.canvas)
    ensures IsDraw(angleDraw) ==> 0.0 <= r.angle < 2.0 * Pi
    ensures r.radius == 0.2 * s.radius && r.alpha == 1.0
    ensures r == q.(R := r.R, angle := r.angle, textPosition := r.textPosition, radius := r.radius, alpha := r.alpha)
  {
    var cap := OrbitCap(s.canvas);
    assert IsDraw(radiusDraw) && s.canvas.width > 0.0 ==> radiusDraw * cap < cap by {
      if IsDraw(radiusDraw) && s.canvas.width > 0.0 {
        assert cap > 0.0;
      }
    }
    q.(R := radiusDraw * cap,
       angle := angleDraw * Pi * 2.0,
       textPosition := Vec(Clamp(sample.x, 0.0, s.canvas.width), Clamp(sample.y, 0.0, s.canvas.height)),
       radius := s.radius * 0.2,
       alpha := 1.0)
  }

  // ---------------------------------------------------------------- fadeIn

  /** The draws fadeIn's `initialize` takes from `Math.random()`, in order. */
  datatype FadeInDraws = FadeInDraws(radiusDraw: real, angleDraw: real)

  /** fadeIn `initialize`: the particle keeps the position the engine gave it
      and records its easing factor `speed / 100`. */
  function FadeInInitialize(s: Setup, sample: Vec, d: FadeInDraws, q: Particle): (r: Particle)
    ensures InCanvas(s.canvas, r.textPosition)
    ensures IsDraw(d.radiusDraw) ==> 0.0 <= r.R <= OrbitCap(s.canvas)
    ensures IsDraw(d.radiusDraw) && s.canvas.width > 0.0 ==> r.R < OrbitCap(s.canvas)
    ensures r.radius == 0.2 * s.radius && r.alpha == 1.0
    ensures r.velocity * 100.0 == s.speed && r.spreadFactor == 0.0
    ensures r.p == q.p && r.dead == q.dead && r.shouldSpread == q.shouldSpread
    ensures r == q.(R := r.R, angle := r.angle, textPosition := r.textPosition, radius := r.radius,
                    alpha := r.alpha, velocity := r.velocity, spreadFactor := r.spreadFactor)
  {
    PlaceOnText(s, sample, d.radiusDraw, d.angleDraw, q).(velocity := s.speed / 100.0, spreadFactor := 0.0)
  }

  /** fadeIn `applyBehaviour`: advance the angle, then move each coordinate
      the fraction `velocity` of the way to this tick's orbit point. */
  function FadeInApply(m: Maths, q: Particle): (r: Particle)
    ensures r.angle == q.angle + AngleIncrement
    ensures var t := OrbitPoint(m, q.textPosition, q.R, r.angle);
      && r.p.x - t.x == (1.0 - q.velocity) * (q.p.x - t.x)
      && r.p.y - t.y == (1.0 - q.velocity) * (q.p.y - t.y)
    ensures r == q.(angle := r.angle, p := r.p)
  {
    var a := q.angle + AngleIncrement;
    var t := OrbitPoint(m, q.textPosition, q.R, a);
    q.(angle := a,
       p := Vec(q.p.x + (t.x - q.p.x) * q.velocity, q.p.y + (t.y - q.p.y) * q.velocity))
  }

  /** With an easing factor in (0, 1] a fadeIn tick never moves a coordinate
      away from this tick's orbit point and never past it. */
  lemma FadeInNoOvershoot(m: Maths, q: Particle)
    requires 0.0 < q.velocity <= 1.0
    ensures var r := FadeInApply(m, q);
      var t := OrbitPoint(m, q.textPosition, q.R, r.angle);
      && (q.p.x >= t.x ==> t.x <= r.p.x <= q.p.x)
      && (q.p.x <= t.x ==> q.p.x <= r.p.x <= t.x)
      && (q.p.y >= t.y ==> t.y <= r.p.y <= q.p.y)
      && (q.p.y <= t.y ==> q.p.y <= r.p.y <= t.y)
  {
    var r := FadeInApply(m, q);
    var t := OrbitPoint(m, q.textPosition, q.R, r.angle);
    Shrink(1.0 - q.velocity, q.p.x - t.x, r.p.x - t.x);
    Shrink(1.0 - q.velocity, q.p.y - t.y, r.p.y - t.y);
  }

  /** Scaling by a factor in [0, 1) keeps a value's side of zero and does
      not enlarge it. */
  lemma Shrink(f: real, d: real, e: real)
    requires 0.0 <= f < 1.0 && e == f * d
    ensures d >= 0.0 ==> 0.0 <= e <= d
    ensures d <= 0.0 ==> d <= e <= 0.0
  {
    if d >= 0.0 {
      MulNonNeg(f, d);
      MulNonNeg(1.0 - f, d);
    } else {
      MulNonNeg(f, -d);
      MulNonNeg(1.0 - f, -d);
    }
  }

  /** `n` consecutive fadeIn ticks. */
  function FadeInTicks(m: Maths, q: Particle, n: nat): Particle
    decreases n
  {
    if n == 0 then q else FadeInTicks(m, FadeInApply(m, q), n - 1)
  }

  function Pow(b: real, n: nat): real
  {
    if n == 0 then 1.0 else b * Pow(b, n - 1)
  }

  /** The gap left after shrinking `gap` by the factor `f` `n` times. */
  function Decay(f: real, n: nat, gap: real): real
  {
    if n == 0 then gap else Decay(f, n - 1, f * gap)
  }

  /** How far a particle is from its text point, per axis. */
  function Gap(q: Particle): Vec
  {
    Vec(q.p.x - q.textPosition.x, q.p.y - q.textPosition.y)
  }

  /** With orbit radius 0, `n` fadeIn ticks shrink each coordinate's gap to
      the text point `n` times by `1 - velocity` and advance the angle `n`
      increments. */
  lemma {:induction false} FadeInGapDecays(m: Maths, q: Particle, n: nat)
    requires q.R == 0.0
    ensures var r := FadeInTicks(m, q, n);
      && Gap(r).x == Decay(1.0 - q.velocity, n, Gap(q).x)
      && Gap(r).y == Decay(1.0 - q.velocity, n, Gap(q).y)
      && r.angle == q.angle + n as real * AngleIncrement
    decreases n
  {
    if n > 0 {
      var q1 := FadeInApply(m, q);
      var r := FadeInTicks(m, q1, n - 1);
      var f := 1.0 - q.velocity;
      assert FadeInTicks(m, q, n) == r;
      assert Gap(q1) == Vec(f * Gap(q).x, f * Gap(q).y)
          && q1.R == 0.0 && q1.velocity == q.velocity by {
        FadeInStaticStep(m, q);
      }
      assert Gap(r).x == Decay(f, n - 1, Gap(q1).x) && Gap(r).y == Decay(f, n - 1, Gap(q1).y)
          && r.angle == q1.angle + (n - 1) as real * AngleIncrement by {
        FadeInGapDecays(m, q1, n - 1);
      }
      DecayStep(f, n, Gap(q).x, Gap(q1).x, Gap(r).x);
      DecayStep(f, n, Gap(q).y, Gap(q1).y, Gap(r).y);
    }
  }

  /** With orbit radius 0 one fadeIn tick shrinks each coordinate's gap to
      the text point by the factor `1 - velocity`. */
  lemma FadeInStaticStep(m: Maths, q: Particle)
    requires q.R == 0.0
    ensures var r := FadeInApply(m, q);
      && Gap(r) == Vec((1.0 - q.velocity) * Gap(q).x, (1.0 - q.velocity) * Gap(q).y)
      && r.R == 0.0 && r.textPosition == q.textPosition && r.velocity == q.velocity
  {
    assert OrbitPoint(m, q.textPosition, q.R, FadeInApply(m, q).angle) == q.textPosition;
  }

  /** Shrinking `n` times by `f` is multiplying by `f^n`. */
  lemma {:induction false} DecayIsPow(f: real, n: nat, gap: real)
    ensures Decay(f, n, gap) == Pow(f, n) * gap
  {
    if n > 0 {
      DecayIsPow(f, n - 1, f * gap);
      var P := Pow(f, n - 1);
      assert P * (f * gap) == (f * P) * gap;
    }
  }

  lemma DecayStep(f: real, n: nat, before: real, mid: real, after: real)
    requires n > 0 && mid == f * before && after == Decay(f, n - 1, mid)
    ensures after == Decay(f, n, before)
  {
  }

  lemma SquareNonNegative(x: real)
    ensures x * x >= 0.0
    ensures x != 0.0 ==> x * x > 0.0
  {
  }

  lemma ScaledUnit(R: real, c: real)
    requires R >= 0.0 && Abs(c) <= 1.0
    ensures Abs(R * c) <= R
  {
    if c >= 0.0 {
      assert R * c <= R;
    } else {
      assert R * c >= -R;
    }
  }

  /** A fadeIn tick never takes a coordinate farther from the text point than
      the larger of its previous distance and the orbit radius. */
  lemma FadeInStaysInBand(m: Maths, q: Particle)
    requires TrigBounded(m) && q.R >= 0.0 && 0.0 < q.velocity <= 1.0
    ensures var r := FadeInApply(m, q);
      && Abs(r.p.x - q.textPosition.x) <= Max(Abs(q.p.x - q.textPosition.x), q.R)
      && Abs(r.p.y - q.textPosition.y) <= Max(Abs(q.p.y - q.textPosition.y), q.R)
  {
    var r := FadeInApply(m, q);
    var t := OrbitPoint(m, q.textPosition, q.R, r.angle);
    var tp := q.textPosition;
    var c, s := m.cos(r.angle), m.sin(r.angle);
    assert -1.0 <= c <= 1.0 && -1.0 <= s <= 1.0;
    AxisBand(q.velocity, q.p.x, r.p.x, tp.x, t.x, q.R, c);
    AxisBand(q.velocity, q.p.y, r.p.y, tp.y, t.y, q.R, s);
  }

  lemma AxisBand(v: real, before: real, after: real, centre: real, target: real, R: real, c: real)
    requires 0.0 < v <= 1.0 && R >= 0.0 && -1.0 <= c <= 1.0
    requires target == centre + R * c
    requires after - target == (1.0 - v) * (before - target)
    ensures Abs(after - centre) <= Max(Abs(before - centre), R)
  {
    ScaledUnit(R, c);
    Blend(v, before, after, centre, target, R);
  }

  /** |(1 - v) d + v e| <= max(|d|, R) when |e| <= R and v is in (0, 1]. */
  lemma Blend(v: real, before: real, after: real, centre: real, target: real, R: real)
    requires 0.0 < v <= 1.0 && Abs(target - centre) <= R
    requires after - target == (1.0 - v) * (before - target)
    ensures Abs(after - centre) <= Max(Abs(before - centre), R)
  {
    var d, e := before - centre, target - centre;
    var M := Max(Abs(d), R);
    assert after - centre == (1.0 - v) * d + v * e;
    ConvexBelow(v, d, e, M);
    ConvexBelow(v, -d, -e, M);
  }

  /** A convex combination of two values at most M is at most M. */
  lemma ConvexBelow(v: real, d: real, e: real, M: real)
    requires 0.0 <= v <= 1.0 && d <= M && e <= M
    ensures (1.0 - v) * d + v * e <= M
  {
    MulNonNeg(1.0 - v, M - d);
    MulNonNeg(v, M - e);
  }

  lemma MulNonNeg(a: real, b: real)
    requires 0.0 <= a && 0.0 <= b
    ensures 0.0 <= a * b
  {
  }

  /** Over any number of fadeIn ticks each coordinate stays within the larger
      of its starting distance and the orbit radius of the text point. */
  lemma {:induction false} FadeInTicksStayInBand(m: Maths, q: Particle, n: nat)
    requires TrigBounded(m) && q.R >= 0.0 && 0.0 < q.velocity <= 1.0
    ensures var r := FadeInTicks(m, q, n);
      && Abs(r.p.x - q.textPosition.x) <= Max(Abs(q.p.x - q.textPosition.x), q.R)
      && Abs(r.p.y - q.textPosition.y) <= Max(Abs(q.p.y - q.textPosition.y), q.R)
    decreases n
  {
    if n > 0 {
      var q1 := FadeInApply(m, q);
      FadeInStaysInBand(m, q);
      FadeInTicksStayInBand(m, q1, n - 1);
    }
  }

  // --------------------------------------------------------------- fadeOut

  /** The draws fadeOut's `initialize` takes from `Math.random()`, in order. */
  datatype FadeOutDraws = FadeOutDraws(
    radiusDraw: real, angleDraw: real, offsetDraw: real, phaseDraw: real, directionXDraw: real, directionYDraw: real)

  /** fadeOut `initialize`: orbit placement plus the spread direction, a
      random vector in [-1, 1) x [-1, 1). `velocity`, `spreadFactor` and
      `shouldSpread` are left as the engine handed them over. */
  function FadeOutInitialize(s: Setup, sample: Vec, d: FadeOutDraws, q: Particle): (r: Particle)
    ensures InCanvas(s.canvas, r.textPosition)
    ensures IsDraw(d.radiusDraw) ==> 0.0 <= r.R <= OrbitCap(s.canvas)
    ensures IsDraw(d.radiusDraw) && s.canvas.width > 0.0 ==> r.R < OrbitCap(s.canvas)
    ensures r.radius == 0.2 * s.radius && r.alpha == 1.0
    ensures IsDraw(d.directionXDraw) ==> -1.0 <= r.randomDirection.x < 1.0
    ensures IsDraw(d.directionYDraw) ==> -1.0 <= r.randomDirection.y < 1.0
    ensures IsDraw(d.offsetDraw) ==> -Pi / 2.0 <= r.randomAngleOffset < Pi / 2.0
    ensures r.p == q.p && r.dead == q.dead && r.shouldSpread == q.shouldSpread
    ensures r.velocity == q.velocity && r.spreadFactor == q.spreadFactor
    ensures r == q.(R := r.R, angle := r.angle, textPosition := r.textPosition, radius := r.radius, alpha := r.alpha,
                    randomAngleOffset := r.randomAngleOffset, sinusoidalOffset := r.sinusoidalOffset,
                    randomDirection := r.randomDirection)
  {
    PlaceOnText(s, sample, d.radiusDraw, d.angleDraw, q).(
      randomAngleOffset := (d.offsetDraw - 0.5) * Pi,
      sinusoidalOffset := d.phaseDraw * Pi * 2.0,
      randomDirection := Vec(d.directionXDraw * 2.0 - 1.0, d.directionYDraw * 2.0 - 1.0))
  }

  /** The two draws a spreading tick takes for its jitter (only when the
      direction is non-zero). */
  datatype Jitter = Jitter(xDraw: real, yDraw: real)

  /** `(Math.random() - 0.5) * randomness`. */
  function JitterOf(draw: real): (j: real)
    ensures IsDraw(draw) ==> -0.05 <= j < 0.05
  {
    (draw - 0.5) * Randomness
  }

  /** The length of the spread direction, as `Math.sqrt` computes it. */
  function Magnitude(m: Maths, d: Vec): real
  {
    m.sqrt(d.x * d.x + d.y * d.y)
  }

  /** The spread move: along the normalised direction plus jitter, scaled by
      the configured speed; a zero-length direction moves nothing. */
  function SpreadMove(s: Setup, m: Maths, j: Jitter, q: Particle): (r: Vec)
    ensures Magnitude(m, q.randomDirection) == 0.0 ==> r == q.p
  {
    var d := q.randomDirection;
    var mag := Magnitude(m, d);
    if mag != 0.0 then
      Vec(q.p.x + (d.x / mag + JitterOf(j.xDraw)) * s.speed,
          q.p.y + (d.y / mag + JitterOf(j.yDraw)) * s.speed)
    else q.p
  }

  /** fadeOut `applyBehaviour`: advance the angle; a spreading particle drifts
      and dies on reaching an edge, any other one is placed on its orbit. */
  function FadeOutApply(s: Setup, m: Maths, j: Jitter, q: Particle): (r: Particle)
    ensures r.angle == q.angle + AngleIncrement
    ensures q.shouldSpread ==> (r.dead <==> q.dead || OnOrBeyondEdge(s.canvas, r.p))
    ensures !q.shouldSpread ==> r.dead == q.dead
    ensures !q.shouldSpread ==> r.p == OrbitPoint(m, q.textPosition, q.R, r.angle)
    ensures r == q.(angle := r.angle, p := r.p, dead := r.dead)
  {
    var a := q.angle + AngleIncrement;
    if q.shouldSpread then
      var p := SpreadMove(s, m, j, q);
      q.(angle := a, p := p, dead := if OnOrBeyondEdge(s.canvas, p) then true else q.dead)
    else
      q.(angle := a, p := OrbitPoint(m, q.textPosition, q.R, a))
  }

  /** An orbiting particle's new position does not depend on where it was. */
  lemma FadeOutOrbitIgnoresPosition(s: Setup, m: Maths, j: Jitter, q: Particle, elsewhere: Vec)
    requires !q.shouldSpread
    ensures FadeOutApply(s, m, j, q.(p := elsewhere)) == FadeOutApply(s, m, j, q)
  {
  }

  /** An orbiting particle stays within its orbit radius of its text point on
      each axis. */
  lemma FadeOutOrbitWithinRadius(s: Setup, m: Maths, j: Jitter, q: Particle)
    requires TrigBounded(m) && !q.shouldSpread && q.R >= 0.0
    ensures var r := FadeOutApply(s, m, j, q);
      Abs(r.p.x - q.textPosition.x) <= q.R && Abs(r.p.y - q.textPosition.y) <= q.R
  {
    var a := q.angle + AngleIncrement;
    ScaledUnit(q.R, m.cos(a));
    ScaledUnit(q.R, m.sin(a));
  }

  /** A spreading particle whose direction is the zero vector stays put. */
  lemma SpreadZeroDirection(s: Setup, m: Maths, j: Jitter, q: Particle)
    requires SqrtSound(m) && q.shouldSpread && q.randomDirection == Vec(0.0, 0.0)
    ensures FadeOutApply(s, m, j, q).p == q.p
  {
    assert Magnitude(m, q.randomDirection) == m.sqrt(0.0) == 0.0;
    assert SpreadMove(s, m, j, q) == q.p;
  }

  /** A spreading particle with a non-zero direction has a positive
      direction length, so it takes the moving branch. */
  lemma SpreadDirectionHasLength(m: Maths, d: Vec)
    requires SqrtSound(m) && d != Vec(0.0, 0.0)
    ensures Magnitude(m, d) > 0.0
  {
    SquareNonNegative(d.x);
    SquareNonNegative(d.y);
  }

  /** A spreading particle with a non-zero direction moves along its
      normalised direction (each component in [-1, 1]) plus jitter, scaled by
      the speed. */
  lemma SpreadMovesAlongDirection(s: Setup, m: Maths, j: Jitter, q: Particle)
    requires SqrtSound(m) && q.shouldSpread && q.randomDirection != Vec(0.0, 0.0)
    ensures var d := q.randomDirection;
      var mag := Magnitude(m, d);
      var r := FadeOutApply(s, m, j, q);
      && mag > 0.0
      && -1.0 <= d.x / mag <= 1.0 && -1.0 <= d.y / mag <= 1.0
      && r.p.x == q.p.x + (d.x / mag + JitterOf(j.xDraw)) * s.speed
      && r.p.y == q.p.y + (d.y / mag + JitterOf(j.yDraw)) * s.speed
  {
    var d := q.randomDirection;
    var mag := Magnitude(m, d);
    SpreadDirectionHasLength(m, d);
    MagnitudeSquares(m, d);
    UnitComponents(d.x, d.y, mag);
    assert FadeOutApply(s, m, j, q).p == SpreadMove(s, m, j, q);
  }

  /** A spreading tick moves a particle by at most 1.05 x speed along each
      axis: the normalised direction contributes at most 1 and the jitter
      less than 0.05. */
  lemma SpreadStepBounded(s: Setup, m: Maths, j: Jitter, q: Particle)
    requires SqrtSound(m) && q.shouldSpread && s.speed >= 0.0
    requires IsDraw(j.xDraw) && IsDraw(j.yDraw)
    ensures var r := FadeOutApply(s, m, j, q);
      && Abs(r.p.x - q.p.x) <= (1.0 + Randomness / 2.0) * s.speed
      && Abs(r.p.y - q.p.y) <= (1.0 + Randomness / 2.0) * s.speed
  {
    assert FadeOutApply(s, m, j, q).p == SpreadMove(s, m, j, q);
    SpreadMoveBounded(s, m, j, q);
  }

  lemma SpreadMoveBounded(s: Setup, m: Maths, j: Jitter, q: Particle)
    requires SqrtSound(m) && s.speed >= 0.0
    requires IsDraw(j.xDraw) && IsDraw(j.yDraw)
    ensures var p := SpreadMove(s, m, j, q);
      && Abs(p.x - q.p.x) <= (1.0 + Randomness / 2.0) * s.speed
      && Abs(p.y - q.p.y) <= (1.0 + Randomness / 2.0) * s.speed
  {
    var p := SpreadMove(s, m, j, q);
    var d := q.randomDirection;
    var mag := Magnitude(m, d);
    if mag != 0.0 {
      MagnitudeSquares(m, d);
      AxisStep(d.x, d.y * d.y, mag, JitterOf(j.xDraw), s.speed, p.x - q.p.x);
      AxisStep(d.y, d.x * d.x, mag, JitterOf(j.yDraw), s.speed, p.y - q.p.y);
    } else {
      MulNonNeg(1.0 + Randomness / 2.0, s.speed);
    }
  }

  /** A non-zero direction length is positive and squares to the sum of
      the squared components. */
  lemma MagnitudeSquares(m: Maths, d: Vec)
    requires SqrtSound(m) && Magnitude(m, d) != 0.0
    ensures Magnitude(m, d) > 0.0
    ensures Magnitude(m, d) * Magnitude(m, d) == d.x * d.x + d.y * d.y
    ensures d.x * d.x >= 0.0 && d.y * d.y >= 0.0
  {
    SquareNonNegative(d.x);
    SquareNonNegative(d.y);
  }

  /** Both components of a vector divided by its length lie in [-1, 1]. */
  lemma UnitComponents(x: real, y: real, mag: real)
    requires mag > 0.0 && x * x >= 0.0 && y * y >= 0.0 && mag * mag == x * x + y * y
    ensures -1.0 <= x / mag <= 1.0 && -1.0 <= y / mag <= 1.0
  {
    CoordinateBelowLength(x, y * y, mag);
    CoordinateBelowLength(y, x * x, mag);
    UnitBound(x, mag);
    UnitBound(y, mag);
  }

  /** One axis of a spreading move. */
  lemma AxisStep(x: real, otherSquare: real, mag: real, jitter: real, speed: real, moved: real)
    requires mag > 0.0 && otherSquare >= 0.0 && mag * mag == x * x + otherSquare
    requires -Randomness / 2.0 <= jitter < Randomness / 2.0 && speed >= 0.0
    requires moved == (x / mag + jitter) * speed
    ensures Abs(moved) <= (1.0 + Randomness / 2.0) * speed
  {
    CoordinateBelowLength(x, otherSquare, mag);
    UnitBound(x, mag);
    ScaledBound(speed, x / mag + jitter, 1.0 + Randomness / 2.0);
  }

  lemma MulStrict(a: real, b: real, c: real)
    requires a > b && c > 0.0
    ensures a * c > b * c
  {
  }

  lemma SquareGrows(x: real, mag: real)
    requires x > mag > 0.0
    ensures x * x > mag * mag
  {
    MulStrict(x, mag, x);
    MulStrict(x, mag, mag);
    assert x * mag == mag * x;
  }

  /** A coordinate is at most the length of its vector. */
  lemma CoordinateBelowLength(x: real, otherSquare: real, mag: real)
    requires mag > 0.0 && otherSquare >= 0.0 && mag * mag == x * x + otherSquare
    ensures -mag <= x <= mag
  {
    if x > mag {
      SquareGrows(x, mag);
      assert false;
    }
    if x < -mag {
      SquareGrows(-x, mag);
      assert false;
    }
  }

  lemma UnitBound(x: real, mag: real)
    requires mag > 0.0 && -mag <= x <= mag
    ensures -1.0 <= x / mag <= 1.0
  {
    var u := x / mag;
    assert u * mag == x;
    if u > 1.0 { MulStrict(u, 1.0, mag); }
    if u < -1.0 { MulStrict(-1.0, u, mag); }
  }

  lemma ScaledBound(R: real, c: real, B: real)
    requires R >= 0.0 && Abs(c) <= B
    ensures Abs(c * R) <= B * R
  {
    MulNonNeg(R, B - c);
    MulNonNeg(R, B + c);
  }

  /** `n` consecutive fadeOut ticks with jitter draws `js`. */
  function FadeOutTicks(s: Setup, m: Maths, js: seq<Jitter>, q: Particle): Particle
  {
    if js == [] then q else FadeOutTicks(s, m, js[1..], FadeOutApply(s, m, js[0], q))
  }

  /** Before the trigger a particle orbits its text point indefinitely: after
      any number of ticks it is still orbiting, within its orbit radius of the
      text point on each axis, and its angle has advanced by 0.02 per tick. */
  lemma {:induction false} FadeOutOrbitTicks(s: Setup, m: Maths, js: seq<Jitter>, q: Particle)
    requires TrigBounded(m) && !q.shouldSpread && q.R >= 0.0
    requires Abs(q.p.x - q.textPosition.x) <= q.R && Abs(q.p.y - q.textPosition.y) <= q.R
    ensures var r := FadeOutTicks(s, m, js, q);
      && !r.shouldSpread && r.dead == q.dead && r.textPosition == q.textPosition
      && Abs(r.p.x - q.textPosition.x) <= q.R && Abs(r.p.y - q.textPosition.y) <= q.R
      && r.angle == q.angle + |js| as real * AngleIncrement
  {
    if js != [] {
      var q1 := FadeOutApply(s, m, js[0], q);
      FadeOutOrbitWithinRadius(s, m, js[0], q);
      FadeOutOrbitTicks(s, m, js[1..], q1);
    }
  }

  /** Once dead, a spreading particle stays dead through any number of ticks. */
  lemma {:induction false} FadeOutDeathIsFinal(s: Setup, m: Maths, js: seq<Jitter>, q: Particle)
    requires q.dead
    ensures FadeOutTicks(s, m, js, q).dead
  {
    if js != [] {
      FadeOutDeathIsFinal(s, m, js[1..], FadeOutApply(s, m, js[0], q));
    }
  }
}

=== FILE: configure.dfy ===
/** The body of `configureEmitter` (src/hooks/configureEmitter.ts): the spawn
    rectangle, the colour palette and the two behaviours it adds to the
    emitter. Drawing the image and sampling the text zone belong to the canvas
    and the engine and are not modelled; the emitter is a record of the three
    collections the hook reads and writes. */
module Configure {
  import opened Behaviours
  import opened Handlers

  /** The value under an entry's `color` key. */
  datatype ColorValue = Text(s: string) | Null | Undefined

  /** An element of the `colors` array: anything the destructuring
      `({ color }) => color` can take apart (an object, but also a string or a
      number, whose `color` is `undefined`), or `null`/`undefined`, on which
      it throws. */
  datatype ColorEntry = Entry(color: ColorValue) | NoEntry

  /** The `colors` setting: an array, or anything `Array.isArray` rejects. */
  datatype ColorsInput = ColorArray(entries: seq<ColorEntry>) | NotAnArray

  /** A computation that either yields a value or throws a `TypeError`. */
  datatype Outcome<T> = Ok(value: T) | Throws

  /** The palette used when `colors` is not an array. */
  const DefaultColor: string := "#00aeff"

  /** `.filter((value) => value !== null)`: `undefined` passes. */
  function DropNull(vs: seq<ColorValue>): (r: seq<ColorValue>)
    ensures Null !in r
    ensures forall v :: v in r <==> v in vs && v != Null
    ensures |r| <= |vs|
  {
    if vs == [] then []
    else if vs[0] == Null then DropNull(vs[1..])
    else [vs[0]] + DropNull(vs[1..])
  }

  /** Filtering distributes over concatenation, so the kept values stay in
      their original order. */
  lemma {:induction false} DropNullAppend(a: seq<ColorValue>, b: seq<ColorValue>)
    ensures DropNull(a + b) == DropNull(a) + DropNull(b)
  {
    if a == [] {
      assert a + b == b;
    } else {
      var ab := a + b;
      assert ab[0] == a[0] && ab[1..] == a[1..] + b;
      DropNullAppend(a[1..], b);
      if a[0] == Null {
        assert DropNull(ab) == DropNull(a[1..] + b);
      } else {
        assert DropNull(ab) == [a[0]] + DropNull(a[1..] + b);
        assert [a[0]] + (DropNull(a[1..]) + DropNull(b)) == ([a[0]] + DropNull(a[1..])) + DropNull(b);
      }
    }
  }

  /** A sequence without `null` passes the filter unchanged. */
  lemma {:induction false} DropNullKeepsNonNull(vs: seq<ColorValue>)
    requires Null !in vs
    ensures DropNull(vs) == vs
  {
    if vs != [] {
      assert vs[0] in vs;
      assert forall v :: v in vs[1..] ==> v in vs;
      DropNullKeepsNonNull(vs[1..]);
    }
  }

  /** `colors.map(({ color }) => color)`: throws on the first element that is
      `null` or `undefined`. */
  function ColorValues(entries: seq<ColorEntry>): (r: Outcome<seq<ColorValue>>)
    ensures r.Ok? <==> forall i :: 0 <= i < |entries| ==> entries[i].Entry?
    ensures r.Ok? ==> |r.value| == |entries| && forall i :: 0 <= i < |entries| ==> r.value[i] == entries[i].color
  {
    if entries == [] then Ok([])
    else if entries[0].NoEntry? then Throws
    else
      match ColorValues(entries[1..])
      case Ok(rest) => Ok([entries[0].color] + rest)
      case Throws =>
        assert entries[1..][0] == entries[1];
        Throws
  }

  /** The palette handed to the `Color` behaviour. */
  function Palette(c: ColorsInput): (r: Outcome<seq<ColorValue>>)
    ensures c.NotAnArray? ==> r == Ok([Text(DefaultColor)])
    ensures c.ColorArray? && c.entries == [] ==> r == Ok([])
    ensures c.ColorArray? ==> (r.Ok? <==> forall i :: 0 <= i < |c.entries| ==> c.entries[i].Entry?)
    ensures c.ColorArray? && r.Ok? ==>
      forall v :: v in r.value <==> v != Null && exists i :: 0 <= i < |c.entries| && c.entries[i].color == v
  {
    match c
    case NotAnArray => Ok([Text(DefaultColor)])
    case ColorArray(entries) =>
      match ColorValues(entries)
      case Ok(vs) =>
        assert forall v :: v in vs <==> exists i :: 0 <= i < |entries| && entries[i].color == v by {
          forall v | v in vs ensures exists i :: 0 <= i < |entries| && entries[i].color == v {
            var i :| 0 <= i < |vs| && vs[i] == v;
            assert entries[i].color == v;
          }
        }
        Ok(DropNull(vs))
      case Throws => Throws
  }

  /** An array of entries without `null` colours gives exactly its colours, in
      order. */
  lemma PaletteOfPlainColors(entries: seq<ColorEntry>)
    requires forall i :: 0 <= i < |entries| ==> entries[i].Entry? && entries[i].color != Null
    ensures Palette(ColorArray(entries)).Ok?
    ensures var p := Palette(ColorArray(entries)).value;
      |p| == |entries| && forall i :: 0 <= i < |entries| ==> p[i] == entries[i].color
  {
    var vs := ColorValues(entries).value;
    assert Null !in vs by {
      forall i | 0 <= i < |vs| ensures vs[i] != Null {
        assert vs[i] == entries[i].color;
      }
    }
    DropNullKeepsNonNull(vs);
  }

  /** Palettes of concatenated arrays concatenate. */
  lemma PaletteAppend(a: seq<ColorEntry>, b: seq<ColorEntry>)
    requires Palette(ColorArray(a)).Ok? && Palette(ColorArray(b)).Ok?
    ensures Palette(ColorArray(a + b)) == Ok(Palette(ColorArray(a)).value + Palette(ColorArray(b)).value)
  {
    var va, vb := ColorValues(a).value, ColorValues(b).value;
    var vab := ColorValues(a + b).value;
    assert vab == va + vb;
    DropNullAppend(va, vb);
  }

  /** An axis-aligned rectangle, as `Proton.Rectangle` stores it. */
  datatype Rect = Rect(x: real, y: real, width: real, height: real)

  predicate Covers(r: Rect, pt: Vec)
  {
    r.x <= pt.x <= r.x + r.width && r.y <= pt.y <= r.y + r.height
  }

  /** How far particles may spawn outside the canvas. */
  const SpawnMargin: real := 50.0

  /** The zone particles are spawned in. */
  function SpawnRect(c: Canvas): (r: Rect)
    ensures r.width >= 2.0 * SpawnMargin && r.height >= 2.0 * SpawnMargin
  {
    Rect(0.0 - 50.0, 0.0 - 50.0, c.width + 100.0, c.height + 100.0)
  }

  /** The spawn zone is the canvas grown by the margin on every side. */
  lemma SpawnRectIsGrownCanvas(c: Canvas, pt: Vec)
    ensures Covers(SpawnRect(c), pt) <==>
      -SpawnMargin <= pt.x <= c.width + SpawnMargin && -SpawnMargin <= pt.y <= c.height + SpawnMargin
    ensures InCanvas(c, pt) ==> Covers(SpawnRect(c), pt)
  {
  }

  /** A behaviour attached to the emitter. */
  datatype Behaviour = ColorBehaviour(palette: seq<ColorValue>) | AnimationBehaviour(kind: Animation, setup: Setup)

  /** The emitter as the hook sees it: the engine's particle collection, its
      initializer zones and its behaviours. */
  datatype Emitter = Emitter(id: nat, particles: seq<Particle>, initializes: seq<Rect>, behaviours: seq<Behaviour>)

  /** The configuration `configRef` holds. */
  datatype Settings = Settings(colors: ColorsInput, radius: real, speed: real, animation: Animation)

  /** The emitter after `configureEmitter` returned, or as it was when the
      call threw. */
  datatype Configured = Configured(emitter: Emitter) | ThrewAfter(emitter: Emitter)

  /** A canvas without pixels: `getImageData` with a zero width or height
      throws an `IndexSizeError` (the pixel manipulation rules of the HTML
      Living Standard's canvas element). */
  predicate Blank(c: Canvas)
  {
    c.width == 0.0 || c.height == 0.0
  }

  /** `configureEmitter`: sample the drawn text (which throws on a blank
      canvas, before anything is added), add the spawn zone, then the colour
      behaviour and the animation behaviour. */
  function ConfigureEmitter(e: Emitter, canvas: Canvas, st: Settings): (r: Configured)
    ensures r.emitter.id == e.id && r.emitter.particles == e.particles
    ensures Blank(canvas) ==> r == ThrewAfter(e)
    ensures !Blank(canvas) ==> r.emitter.initializes == e.initializes + [SpawnRect(canvas)]
    ensures r.Configured? <==> !Blank(canvas) && Palette(st.colors).Ok?
    ensures r.Configured? ==>
      && |r.emitter.behaviours| == |e.behaviours| + 2
      && r.emitter.behaviours[..|e.behaviours|] == e.behaviours
      && r.emitter.behaviours[|e.behaviours|] == ColorBehaviour(Palette(st.colors).value)
      && r.emitter.behaviours[|e.behaviours| + 1] == AnimationBehaviour(st.animation, Setup(st.radius, st.speed, canvas))
    ensures r.ThrewAfter? ==> r.emitter.behaviours == e.behaviours
  {
    if Blank(canvas) then ThrewAfter(e)
    else
    var withZone := e.(initializes := e.initializes + [SpawnRect(canvas)]);
    match Palette(st.colors)
    case Throws => ThrewAfter(withZone)
    case Ok(p) =>
      Configured(withZone.(behaviours := withZone.behaviours
                             + [ColorBehaviour(p), AnimationBehaviour(st.animation, Setup(st.radius, st.speed, canvas))]))
  }

  /** Configuring an emitter whose collections were just emptied leaves it
      with exactly one spawn zone and one behaviour of each kind. On a blank
      canvas it throws and the emitter stays empty; with a palette entry that
      throws, the emitter keeps the spawn zone and gets no behaviour. */
  lemma ConfigureClearedEmitter(id: nat, ps: seq<Particle>, canvas: Canvas, st: Settings)
    ensures Blank(canvas) ==> ConfigureEmitter(Emitter(id, ps, [], []), canvas, st) == ThrewAfter(Emitter(id, ps, [], []))
    ensures !Blank(canvas) && !Palette(st.colors).Ok? ==>
      ConfigureEmitter(Emitter(id, ps, [], []), canvas, st) == ThrewAfter(Emitter(id, ps, [SpawnRect(canvas)], []))
    ensures !Blank(canvas) && Palette(st.colors).Ok? ==> var r := ConfigureEmitter(Emitter(id, ps, [], []), canvas, st);
      && r.Configured?
      && r.emitter.initializes == [SpawnRect(canvas)]
      && r.emitter.behaviours == [ColorBehaviour(Palette(st.colors).value),
                                  AnimationBehaviour(st.animation, Setup(st.radius, st.speed, canvas))]
  {
  }
}

=== FILE: controller.dfy ===
/** The lifecycle of `useProtonEmitter` (src/hooks/useProtonEmitter.tsx) as
    an event-driven state machine over the hook's refs and flags.

    React effects, the debounced resize callback, image loading and
    `requestAnimationFrame` become discrete events; their timing is not
    modelled. Handles (object URLs, frame ids, emitter identities) are
    natural numbers drawn from a counter, so a fresh one differs from every
    earlier one. An exception thrown inside an event ends that event: the
    writes made before it stay, the rest do not happen. */
module Controller {
  import opened Wrappers
  import opened Helpers
  import opened Behaviours
  import opened Handlers
  import opened Configure

  /** The particle engine: the ids of the emitters registered with it, in
      registration order. */
  datatype Engine = Engine(emitters: seq<nat>)

  /** `animationHandlingRef`: the `trigger`/`reset` closures, which act on the
      emitter they were created for. */
  datatype HandlerRef = HandlerRef(kind: Animation, emitterId: nat)

  datatype State = State(
    proton: Option<Engine>,        // protonRef
    emitter: Option<Emitter>,      // emitterRef
    observing: bool,               // resizeObserverRef is set
    resizable: bool,               // a debounced resize callback exists
    cleanup: bool,                 // the mount effect's cleanup is registered and has not run
    url: Option<nat>,              // urlRef
    liveUrls: set<nat>,            // object URLs created and not yet revoked
    frame: Option<nat>,            // requestAnimationFrameRef
    loops: set<nat>,               // frame callbacks scheduled and not cancelled
    subscribed: bool,              // isSubscribedToUpdates
    pendingLoads: nat,             // image loads not yet settled
    handlers: Option<HandlerRef>,  // animationHandlingRef
    initialized: bool,             // isInitialized
    config: Settings,              // configRef
    canvas: Canvas,
    nextId: nat)                   // the next fresh handle

  datatype Event =
    | Mount(attached: bool)                  // the mount effect; `attached`: the canvas has a parent
    | ConfigChange(settings: Settings)       // the config effect
    | Resize(width: NonNeg, height: NonNeg)  // the debounced resize callback
    | ImageReady(batch: seq<Particle>)       // a load resolves; `batch` is what `emit('once')` adds
    | LoadFailed                             // a load rejects
    | Tick(handle: nat)                      // a scheduled frame callback runs
    | TriggerAnimation(batch: seq<Particle>)
    | ResetAnimation(batch: seq<Particle>)
    | Teardown                               // the mount effect's cleanup

  /** Before the first commit: every ref null, every flag false. */
  function Init(settings: Settings, canvas: Canvas): State
  {
    State(None, None, false, false, false, None, {}, None, {}, false, 0, None, false, settings, canvas, 1)
  }

  /** The mount effect: a fresh engine and emitter and a resize observer.
      Without a parent element it returns before registering a cleanup. */
  function MountEffect(st: State, attached: bool): (r: State)
    ensures attached ==> r.proton == Some(Engine([])) && r.emitter == Some(Emitter(st.nextId, [], [], []))
    ensures attached ==> r.cleanup && r.observing && r.resizable
    ensures !attached ==> r == st
    ensures r.loops == st.loops && r.subscribed == st.subscribed && r.liveUrls == st.liveUrls
    ensures r == st.(proton := r.proton, emitter := r.emitter, observing := r.observing,
                     resizable := r.resizable, cleanup := r.cleanup, nextId := r.nextId)
  {
    if attached then
      st.(proton := Some(Engine([])), emitter := Some(Emitter(st.nextId, [], [], [])),
          observing := true, resizable := true, cleanup := true, nextId := st.nextId + 1)
    else st
  }

  /** `emitParticles`: revoke the stored URL, cancel the frame loop if the flag
      says one runs, empty the emitter and start loading a fresh image. A null
      emitter throws once the first two steps are done. */
  function EmitParticles(st: State): (r: State)
    ensures !r.subscribed
    ensures r.loops <= st.loops
    ensures st.subscribed && st.frame.Some? ==> st.frame.value !in r.loops
    ensures st.url.Some? && st.url.value < st.nextId ==> st.url.value !in r.liveUrls
    ensures st.emitter.Some? ==>
      && r.emitter == Some(Emitter(st.emitter.value.id, [], [], []))
      && r.url == Some(st.nextId) && st.nextId in r.liveUrls
      && r.pendingLoads == st.pendingLoads + 1
    ensures st.emitter.None? ==> r.pendingLoads == st.pendingLoads && r.url == st.url
    ensures r.handlers == st.handlers && r.initialized == st.initialized && r.proton == st.proton
    ensures r.loops == Release(st).loops
    ensures r == st.(liveUrls := r.liveUrls, loops := r.loops, subscribed := false, emitter := r.emitter,
                     url := r.url, pendingLoads := r.pendingLoads, nextId := r.nextId)
  {
    var s1 := Release(st);
    match s1.emitter
    case None => s1
    case Some(e) =>
      s1.(emitter := Some(e.(particles := [], initializes := [], behaviours := [])),
          url := Some(st.nextId), liveUrls := s1.liveUrls + {st.nextId},
          pendingLoads := st.pendingLoads + 1, nextId := st.nextId + 1)
  }

  /** The first two steps of `emitParticles`: revoke the stored URL and, when
      the flag is set, cancel the stored frame and clear the flag. Nothing
      else changes. */
  function Release(st: State): (r: State)
    ensures !r.subscribed && r.loops <= st.loops && r.liveUrls <= st.liveUrls
    ensures st.subscribed && st.frame.Some? ==> st.frame.value !in r.loops
    ensures !st.subscribed ==> r.loops == st.loops
    ensures forall h :: h in r.loops <==> h in st.loops && !(st.subscribed && st.frame == Some(h))
    ensures st.url.Some? ==> st.url.value !in r.liveUrls
    ensures forall u :: u in r.liveUrls <==> u in st.liveUrls && st.url != Some(u)
    ensures r == st.(liveUrls := r.liveUrls, loops := r.loops, subscribed := false)
  {
    var live := if st.url.Some? then st.liveUrls - {st.url.value} else st.liveUrls;
    var loops := if st.subscribed && st.frame.Some? then st.loops - {st.frame.value} else st.loops;
    st.(liveUrls := live, loops := loops, subscribed := false)
  }

  /** `engine.removeEmitter`: the emitter's id leaves the registration list. */
  function Unregister(ids: seq<nat>, id: nat): (r: seq<nat>)
    ensures id !in r
    ensures forall x :: x in r <==> x in ids && x != id
  {
    if ids == [] then []
    else if ids[0] == id then Unregister(ids[1..], id)
    else [ids[0]] + Unregister(ids[1..], id)
  }

  /** `subscribeToUpdates`, run when the engine is present: one engine update
      and one newly scheduled frame. */
  function Subscribe(st: State): (r: State)
    ensures r.frame == Some(st.nextId) && r.loops == st.loops + {st.nextId} && r.nextId == st.nextId + 1
    ensures r == st.(loops := r.loops, frame := r.frame, nextId := r.nextId)
    ensures (forall h :: h in st.loops ==> h < st.nextId) ==> st.nextId !in st.loops && |r.loops| == |st.loops| + 1
  {
    st.(loops := st.loops + {st.nextId}, frame := Some(st.nextId), nextId := st.nextId + 1)
  }

  /** The `.then` body of the image load: unregister and reconfigure the
      emitter, store the handlers, register the emitter again, run
      `initialize`, set `isInitialized`, and start the frame loop unless the
      flag says one runs. With a null engine the first line throws; when
      `configureEmitter` throws (a blank canvas, a bad palette entry) the
      emitter stays unregistered and nothing after it happens. */
  function ImageLoaded(st: State, batch: seq<Particle>): (r: State)
    requires st.pendingLoads > 0
    ensures r.pendingLoads == st.pendingLoads - 1
    ensures r.loops != st.loops ==> !st.subscribed && r.subscribed && r.loops == st.loops + {st.nextId}
    ensures r.initialized && !st.initialized ==> r.handlers.Some? && r.emitter.Some? && r.handlers.value.emitterId == r.emitter.value.id
    ensures r.handlers != st.handlers ==> r.initialized && r.emitter.Some? && r.handlers == Some(HandlerRef(st.config.animation, r.emitter.value.id))
    ensures st.proton.None? ==> r == st.(pendingLoads := st.pendingLoads - 1)
    ensures st.proton.Some? && st.emitter.Some? ==>
      var e := st.emitter.value;
      var c := ConfigureEmitter(e, st.canvas, st.config);
      && (c.Configured? ==>
            && r.initialized
            && r.proton == Some(Engine(Unregister(st.proton.value.emitters, e.id) + [e.id]))
            && r.emitter == Some(c.emitter.(particles := Handle(st.config.animation, Initialize, c.emitter.particles, batch)))
            && r.handlers == Some(HandlerRef(st.config.animation, e.id))
            && r.subscribed
            && (!st.subscribed ==> r.frame.Some? && r.frame.value in r.loops))
      && (c.ThrewAfter? ==>
            && r.proton == Some(Engine(Unregister(st.proton.value.emitters, e.id)))
            && r.emitter == Some(c.emitter)
            && r.handlers == st.handlers && r.initialized == st.initialized
            && r.loops == st.loops && r.subscribed == st.subscribed)
    ensures r == st.(pendingLoads := r.pendingLoads, proton := r.proton, emitter := r.emitter,
                     handlers := r.handlers, initialized := r.initialized, loops := r.loops,
                     frame := r.frame, subscribed := r.subscribed, nextId := r.nextId)
  {
    var s0 := st.(pendingLoads := st.pendingLoads - 1);
    if s0.proton.None? || s0.emitter.None? then s0
    else
      var e := s0.emitter.value;
      var engine := Engine(Unregister(s0.proton.value.emitters, e.id));
      AfterConfigure(s0, engine, ConfigureEmitter(e, s0.canvas, s0.config), batch)
  }

  /** The rest of the `.then` body once `configureEmitter` returned or threw. */
  function AfterConfigure(s0: State, engine: Engine, c: Configured, batch: seq<Particle>): State
  {
    match c
    case ThrewAfter(e2) => s0.(proton := Some(engine), emitter := Some(e2))
    case Configured(e2) => StartLoop(Ready(s0, engine, e2, batch))
  }

  /** The configured emitter registered again, its `initialize` handler run
      and the handlers stored. */
  function Ready(s0: State, engine: Engine, e2: Emitter, batch: seq<Particle>): (r: State)
    ensures r.initialized && r.handlers == Some(HandlerRef(s0.config.animation, e2.id))
    ensures r.proton == Some(Engine(engine.emitters + [e2.id]))
    ensures r.emitter.Some? && r.emitter.value.id == e2.id
    ensures r.loops == s0.loops && r.subscribed == s0.subscribed && r.frame == s0.frame
  {
    var kind := s0.config.animation;
    s0.(proton := Some(Engine(engine.emitters + [e2.id])),
        emitter := Some(e2.(particles := Handle(kind, Initialize, e2.particles, batch))),
        handlers := Some(HandlerRef(kind, e2.id)),
        initialized := true)
  }

  /** `subscribeToUpdates` behind the flag. */
  function StartLoop(ready: State): (r: State)
    ensures r.subscribed
    ensures ready.subscribed ==> r == ready
    ensures !ready.subscribed ==> r.loops == ready.loops + {ready.nextId} && r.frame == Some(ready.nextId)
    ensures ready.nextId !in ready.loops && !ready.subscribed ==> |r.loops| == |ready.loops| + 1
    ensures r.initialized == ready.initialized && r.handlers == ready.handlers && r.emitter == ready.emitter
  {
    if ready.subscribed then ready else Subscribe(ready).(subscribed := true)
  }

  /** A frame callback: one engine update and the next frame. With a null
      engine the update throws and the loop ends. */
  function FrameTick(st: State, h: nat): (r: State)
    ensures h !in st.loops ==> r == st
    ensures h in st.loops && st.proton.None? ==> r.loops == st.loops - {h}
    ensures h in st.loops && st.proton.Some? ==> r.loops == st.loops - {h} + {st.nextId} && r.frame == Some(st.nextId)
    ensures r.subscribed == st.subscribed
    ensures r == st.(loops := r.loops, frame := r.frame, nextId := r.nextId)
  {
    if h !in st.loops then st
    else
      var s1 := st.(loops := st.loops - {h});
      if s1.proton.None? then s1 else Subscribe(s1)
  }

  /** `triggerAnimation` / `resetAnimation`: run the stored handler when the
      component is initialised and a handler is stored. The handler acts on the
      emitter it was created for, which the hook may no longer hold. */
  function RunHandler(st: State, h: Handler, batch: seq<Particle>): (r: State)
    ensures !(st.initialized && st.handlers.Some?) ==> r == st
    ensures r == st.(emitter := r.emitter)
    ensures st.initialized && st.handlers.Some? && st.emitter.Some? && st.emitter.value.id == st.handlers.value.emitterId ==>
      r.emitter == Some(st.emitter.value.(particles := Handle(st.handlers.value.kind, h, st.emitter.value.particles, batch)))
    ensures st.emitter.Some? && st.handlers.Some? && st.emitter.value.id != st.handlers.value.emitterId ==> r == st
  {
    if st.initialized && st.handlers.Some? && st.emitter.Some? && st.emitter.value.id == st.handlers.value.emitterId then
      var e := st.emitter.value;
      st.(emitter := Some(e.(particles := Handle(st.handlers.value.kind, h, e.particles, batch))))
    else st
  }

  /** The mount effect's cleanup: destroy the engine, disconnect the observer,
      revoke the URL and cancel the frame, each behind a null check and each
      nulling its ref. It leaves `isSubscribedToUpdates` alone. */
  function TeardownEffect(st: State): (r: State)
    ensures !st.cleanup ==> r == st
    ensures st.cleanup ==> r.proton.None? && !r.observing && r.url.None? && r.frame.None? && !r.cleanup
    ensures st.cleanup && st.url.Some? ==> st.url.value !in r.liveUrls
    ensures st.cleanup && st.frame.Some? ==> st.frame.value !in r.loops
    ensures r.subscribed == st.subscribed && r.emitter == st.emitter
    ensures r.handlers == st.handlers && r.initialized == st.initialized
    ensures r == st.(proton := r.proton, observing := r.observing, url := r.url, liveUrls := r.liveUrls,
                     frame := r.frame, loops := r.loops, cleanup := r.cleanup)
  {
    if !st.cleanup then st
    else
      var live := if st.url.Some? then st.liveUrls - {st.url.value} else st.liveUrls;
      var loops := if st.frame.Some? then st.loops - {st.frame.value} else st.loops;
      st.(proton := None, observing := false, url := None, liveUrls := live,
          frame := None, loops := loops, cleanup := false)
  }

  /** Assigning a size to `canvas.width` or `canvas.height` stores a whole
      number of pixels: the fraction is dropped. */
  function PixelSize(x: NonNeg): (r: NonNeg)
    ensures r <= x < r + 1.0
    ensures r == r.Floor as real
  {
    x.Floor as real
  }

  /** One event. A resize runs the debounced `resizeCanvas` only while an
      observer callback exists: it stores the parent's size in the canvas and
      reloads. A rejected load only settles. */
  function Step(st: State, ev: Event): (r: State)
    ensures ev.Resize? && !st.resizable ==> r == st
    ensures ev.Resize? && st.resizable ==>
      && r.canvas == Canvas(PixelSize(ev.width), PixelSize(ev.height))
      && !r.subscribed
      && (st.emitter.Some? ==> r.pendingLoads == st.pendingLoads + 1)
    ensures ev.LoadFailed? ==> r.pendingLoads == if st.pendingLoads > 0 then st.pendingLoads - 1 else 0
    ensures ev.LoadFailed? ==> r == st.(pendingLoads := r.pendingLoads)
    ensures (ev.ImageReady? || ev.LoadFailed?) && st.pendingLoads == 0 ==> r == st
  {
    match ev
    case Mount(attached) => MountEffect(st, attached)
    case ConfigChange(settings) => EmitParticles(st.(config := settings))
    case Resize(w, h) => if st.resizable then EmitParticles(st.(canvas := Canvas(PixelSize(w), PixelSize(h)))) else st
    case ImageReady(batch) => if st.pendingLoads > 0 then ImageLoaded(st, batch) else st
    case LoadFailed => if st.pendingLoads > 0 then st.(pendingLoads := st.pendingLoads - 1) else st
    case Tick(h) => FrameTick(st, h)
    case TriggerAnimation(batch) => RunHandler(st, Trigger, batch)
    case ResetAnimation(batch) => RunHandler(st, Reset, batch)
    case Teardown => TeardownEffect(st)
  }

  function Run(st: State, evs: seq<Event>): State
    decreases evs
  {
    if evs == [] then st else Run(Step(st, evs[0]), evs[1..])
  }

  /** The first commit: the mount effect, then the config effect. */
  function Start(attached: bool, settings: Settings, canvas: Canvas): State
  {
    Step(Step(Init(settings, canvas), Mount(attached)), ConfigChange(settings))
  }

  /** What every reachable state satisfies. */
  ghost predicate Inv(st: State)
  {
    // every scheduled frame is the one the ref holds, so at most one loop runs
    && (forall h :: h in st.loops ==> st.frame == Some(h))
    // a running loop implies the flag
    && (st.loops != {} ==> st.subscribed)
    // the only unrevoked URL is the stored one
    && (forall u :: u in st.liveUrls ==> st.url == Some(u))
    // handles are drawn from the counter
    && (st.url.Some? ==> st.url.value < st.nextId)
    && (st.frame.Some? ==> st.frame.value < st.nextId)
    // the engine holds the current emitter at most once and nothing else
    && (st.proton.Some? ==> st.emitter.Some? && st.proton.value.emitters in {[], [st.emitter.value.id]})
    // handlers are stored exactly when the component is initialised
    && (st.initialized <==> st.handlers.Some?)
  }

  lemma UnregisterSingle(ids: seq<nat>, id: nat)
    requires ids in {[], [id]}
    ensures Unregister(ids, id) == []
  {
    if ids == [id] {
      assert ids[1..] == [];
    }
  }

  lemma StartSatisfiesInv(attached: bool, settings: Settings, canvas: Canvas)
    ensures Inv(Start(attached, settings, canvas))
  {
  }

  lemma StepPreservesInv(st: State, ev: Event)
    requires Inv(st)
    ensures Inv(Step(st, ev))
  {
    match ev
    case Mount(attached) => MountPreservesInv(st, attached);
    case ConfigChange(settings) => EmitParticlesPreservesInv(st.(config := settings));
    case Resize(w, h) => EmitParticlesPreservesInv(st.(canvas := Canvas(PixelSize(w), PixelSize(h))));
    case ImageReady(batch) =>
      if st.pendingLoads > 0 {
        ImageLoadedPreservesInv(st, batch);
      }
    case LoadFailed =>
    case Tick(h) => FrameTickPreservesInv(st, h);
    case TriggerAnimation(batch) => RunHandlerPreservesInv(st, Trigger, batch);
    case ResetAnimation(batch) => RunHandlerPreservesInv(st, Reset, batch);
    case Teardown => TeardownPreservesInv(st);
  }

  lemma MountPreservesInv(st: State, attached: bool)
    requires Inv(st)
    ensures Inv(MountEffect(st, attached))
  {
  }

  lemma RunHandlerPreservesInv(st: State, h: Handler, batch: seq<Particle>)
    requires Inv(st)
    ensures Inv(RunHandler(st, h, batch))
  {
  }

  lemma EmitParticlesPreservesInv(st: State)
    requires Inv(st)
    ensures Inv(EmitParticles(st))
  {
  }

  lemma ImageLoadedPreservesInv(st: State, batch: seq<Particle>)
    requires Inv(st) && st.pendingLoads > 0
    ensures Inv(ImageLoaded(st, batch))
  {
    var s0 := st.(pendingLoads := st.pendingLoads - 1);
    if s0.proton.None? {
      assert ImageLoaded(st, batch) == s0;
    } else {
      var e := s0.emitter.value;
      UnregisterSingle(s0.proton.value.emitters, e.id);
      var engine := Engine(Unregister(s0.proton.value.emitters, e.id));
      var c := ConfigureEmitter(e, s0.canvas, s0.config);
      AfterConfigureInv(s0, engine, c, batch);
      assert ImageLoaded(st, batch) == AfterConfigure(s0, engine, c, batch);
    }
  }

  lemma AfterConfigureInv(s0: State, engine: Engine, c: Configured, batch: seq<Particle>)
    requires Inv(s0) && s0.proton.Some? && engine.emitters == []
    ensures Inv(AfterConfigure(s0, engine, c, batch))
  {
    if c.Configured? {
      ReadyInv(s0, engine, c.emitter, batch);
      StartLoopInv(Ready(s0, engine, c.emitter, batch));
    }
  }

  lemma ReadyInv(s0: State, engine: Engine, e2: Emitter, batch: seq<Particle>)
    requires Inv(s0) && engine.emitters == []
    ensures Inv(Ready(s0, engine, e2, batch))
  {
    assert engine.emitters + [e2.id] == [e2.id];
  }

  lemma StartLoopInv(ready: State)
    requires Inv(ready)
    ensures Inv(StartLoop(ready))
  {
  }

  lemma FrameTickPreservesInv(st: State, h: nat)
    requires Inv(st)
    ensures Inv(FrameTick(st, h))
  {
  }

  lemma TeardownPreservesInv(st: State)
    requires Inv(st)
    ensures Inv(TeardownEffect(st))
  {
  }

  lemma {:induction false} RunPreservesInv(st: State, evs: seq<Event>)
    requires Inv(st)
    ensures Inv(Run(st, evs))
    decreases evs
  {
    if evs != [] {
      StepPreservesInv(st, evs[0]);
      RunPreservesInv(Step(st, evs[0]), evs[1..]);
    }
  }

  lemma SingletonBound(s: set<nat>, x: nat)
    requires forall h :: h in s ==> h == x
    ensures |s| <= 1
  {
    if s != {} {
      assert s == {x};
    }
  }

  /** Under any interleaving of events after the first commit at most one
      frame loop is live, a live loop implies the flag, at most one object URL
      is unrevoked and the engine holds the emitter at most once. */
  lemma AtMostOneLoop(attached: bool, settings: Settings, canvas: Canvas, evs: seq<Event>)
    ensures var st := Run(Start(attached, settings, canvas), evs);
      && |st.loops| <= 1
      && (st.loops != {} ==> st.subscribed)
      && |st.liveUrls| <= 1
      && (st.proton.Some? ==> |st.proton.value.emitters| <= 1)
  {
    StartSatisfiesInv(attached, settings, canvas);
    RunPreservesInv(Start(attached, settings, canvas), evs);
    var st := Run(Start(attached, settings, canvas), evs);
    if st.frame.Some? {
      SingletonBound(st.loops, st.frame.value);
    } else {
      assert st.loops == {};
    }
    if st.url.Some? {
      SingletonBound(st.liveUrls, st.url.value);
    } else {
      assert st.liveUrls == {};
    }
  }

  /** Running the cleanup twice is running it once. */
  lemma TeardownIdempotent(st: State)
    ensures TeardownEffect(TeardownEffect(st)) == TeardownEffect(st)
  {
  }

  /** From any reachable state the cleanup leaves no loop and no unrevoked
      URL, but keeps a set flag. */
  lemma TeardownStopsEverything(st: State)
    requires Inv(st) && st.cleanup
    ensures var r := TeardownEffect(st);
      r.loops == {} && r.liveUrls == {} && r.subscribed == st.subscribed
  {
  }

  /** Trigger and reset change nothing unless the component is initialised
      and a handler is stored. */
  lemma HandlersNeedInitialisation(st: State, ev: Event)
    requires ev.TriggerAnimation? || ev.ResetAnimation?
    requires !st.initialized || st.handlers.None?
    ensures Step(st, ev) == st
  {
  }

  // ------------------------------------------------------------ scenarios

  lemma RunTwo(st: State, a: Event, b: Event)
    ensures Run(st, [a, b]) == Step(Step(st, a), b)
  {
    assert [a, b][1..] == [b] && [b][1..] == [];
    assert Run(st, [a, b]) == Run(Step(st, a), [b]);
    assert Run(Step(st, a), [b]) == Run(Step(Step(st, a), b), []);
  }

  lemma RunThree(st: State, a: Event, b: Event, c: Event)
    ensures Run(st, [a, b, c]) == Step(Step(Step(st, a), b), c)
  {
    assert [a, b, c][1..] == [b, c];
    RunTwo(Step(st, a), b, c);
  }

  lemma RunFive(st: State, a: Event, b: Event, c: Event, d: Event, e: Event)
    ensures Run(st, [a, b, c, d, e]) == Step(Step(Step(Step(Step(st, a), b), c), d), e)
  {
    assert [a, b, c, d, e][1..] == [b, c, d, e] && [b, c, d, e][1..] == [c, d, e];
    assert Run(st, [a, b, c, d, e]) == Run(Step(st, a), [b, c, d, e]);
    assert Run(Step(st, a), [b, c, d, e]) == Run(Step(Step(st, a), b), [c, d, e]);
    RunThree(Step(Step(st, a), b), c, d, e);
  }

  /** Running a concatenation runs its parts in turn. */
  lemma {:induction false} RunPrefix(st: State, xs: seq<Event>, ys: seq<Event>)
    ensures Run(st, xs + ys) == Run(Run(st, xs), ys)
    decreases xs
  {
    if xs == [] {
      assert xs + ys == ys;
    } else {
      assert (xs + ys)[0] == xs[0] && (xs + ys)[1..] == xs[1..] + ys;
      RunPrefix(Step(st, xs[0]), xs[1..], ys);
    }
  }

  const DemoSettings: Settings := Settings(NotAnArray, 10.0, 2.0, FadeOut)
  const DemoCanvas: Canvas := Canvas(300.0, 150.0)

  /** Two loads in flight (a config commit and a resize) with no generation
      check: both completions configure the same emitter, which ends up with
      two spawn zones and four behaviours. */
  lemma StaleLoadDoublesBehaviours()
    ensures var st := Run(Start(true, DemoSettings, DemoCanvas),
                          [Resize(300.0, 150.0), ImageReady([]), ImageReady([])]);
      && st.emitter.Some?
      && |st.emitter.value.initializes| == 2
      && |st.emitter.value.behaviours| == 4
  {
    var s0 := Start(true, DemoSettings, DemoCanvas);
    var s1 := Step(s0, Resize(300.0, 150.0));
    ResizeToSameSize();
    var s2 := Step(s1, ImageReady([]));
    assert && s2.pendingLoads == 1 && s2.proton.Some? && s2.emitter.Some? && s2.canvas == DemoCanvas
        && s2.config == DemoSettings && |s2.emitter.value.initializes| == 1 && |s2.emitter.value.behaviours| == 2 by {
      LoadAddsZoneAndBehaviours(s1, []);
    }
    var s3 := Step(s2, ImageReady([]));
    assert s3.emitter.Some? && |s3.emitter.value.initializes| == 2 && |s3.emitter.value.behaviours| == 4 by {
      LoadAddsZoneAndBehaviours(s2, []);
    }
    RunThree(s0, Resize(300.0, 150.0), ImageReady([]), ImageReady([]));
  }

  /** A resize to the size the canvas already has still empties the emitter
      and starts a second load next to the one the first commit started. */
  lemma ResizeToSameSize()
    ensures var s := Step(Start(true, DemoSettings, DemoCanvas), Resize(300.0, 150.0));
      && s.pendingLoads == 2 && s.emitter.Some? && s.proton.Some? && s.canvas == DemoCanvas
      && s.config == DemoSettings && s.emitter.value.behaviours == [] && s.emitter.value.initializes == []
      && s.loops == {} && !s.subscribed && s.cleanup
  {
    assert PixelSize(300.0) == 300.0 && PixelSize(150.0) == 150.0;
  }

  /** Every load that completes on a drawable canvas with a valid palette
      adds one spawn zone and two behaviours to the emitter, whatever it
      already holds. */
  lemma LoadAddsZoneAndBehaviours(st: State, batch: seq<Particle>)
    requires st.pendingLoads > 0 && st.proton.Some? && st.emitter.Some?
    requires !Blank(st.canvas) && Palette(st.config.colors).Ok?
    ensures var r := Step(st, ImageReady(batch));
      && r.pendingLoads == st.pendingLoads - 1
      && r.proton.Some? && r.emitter.Some? && r.canvas == st.canvas && r.config == st.config
      && |r.emitter.value.initializes| == |st.emitter.value.initializes| + 1
      && |r.emitter.value.behaviours| == |st.emitter.value.behaviours| + 2
      && r.initialized && r.subscribed && r.cleanup == st.cleanup
      && (st.subscribed ==> r.loops == st.loops)
      && (!st.subscribed ==> r.frame.Some? && r.loops == st.loops + {r.frame.value})
  {
    var e := st.emitter.value;
    var s0 := st.(pendingLoads := st.pendingLoads - 1);
    var engine := Engine(Unregister(st.proton.value.emitters, e.id));
    var c := ConfigureEmitter(e, st.canvas, st.config);
    assert Step(st, ImageReady(batch)) == StartLoop(Ready(s0, engine, c.emitter, batch));
  }

  /** After the cleanup and a remount (what a change of `isInitialized`
      causes), the stored handlers still belong to the old emitter: triggering
      does not touch the particles of the emitter the hook now holds. */
  lemma TriggerAfterRemountMissesEmitter(p: Particle)
    ensures var s := Run(Start(true, DemoSettings, DemoCanvas), [ImageReady([p]), Teardown, Mount(true)]);
      && s.initialized && s.handlers.Some?
      && Step(s, TriggerAnimation([p])) == s
  {
    var s0 := Start(true, DemoSettings, DemoCanvas);
    var s1 := Step(s0, ImageReady([p]));
    assert s1.initialized && s1.handlers == Some(HandlerRef(FadeOut, s0.emitter.value.id));
    var s2 := Step(s1, Teardown);
    var s3 := Step(s2, Mount(true));
    assert s3.emitter.value.id != s3.handlers.value.emitterId;
    RunThree(s0, ImageReady([p]), Teardown, Mount(true));
  }

  /** A load completes and the component is torn down while a second load is
      still in flight: the loop is cancelled, but the flag stays set. */
  lemma LoadThenTeardownKeepsFlag()
    ensures var s := Step(Step(Step(Start(true, DemoSettings, DemoCanvas), Resize(300.0, 150.0)), ImageReady([])), Teardown);
      && s.loops == {} && s.subscribed && s.pendingLoads == 1
      && s.canvas == DemoCanvas && s.config == DemoSettings
  {
    var s1 := Step(Start(true, DemoSettings, DemoCanvas), Resize(300.0, 150.0));
    ResizeToSameSize();
    LoadAddsZoneAndBehaviours(s1, []);
  }

  /** With the flag left set and no loop running, a remount followed by a
      completed load initialises the component but starts no loop. */
  lemma RemountWithStaleFlag(st: State, batch: seq<Particle>)
    requires st.loops == {} && st.subscribed && st.pendingLoads > 0
    requires !Blank(st.canvas) && Palette(st.config.colors).Ok?
    ensures var r := Step(Step(st, Mount(true)), ImageReady(batch));
      && r.initialized && r.proton.Some? && r.subscribed && r.loops == {}
  {
    var s1 := Step(st, Mount(true));
    assert s1.proton.Some? && s1.emitter.Some? && s1.loops == {} && s1.subscribed
        && s1.pendingLoads == st.pendingLoads && s1.canvas == st.canvas && s1.config == st.config;
    LoadAddsZoneAndBehaviours(s1, batch);
  }

  /** The cleanup cancels the loop but leaves the flag set: a load that was
      already in flight completes on the remounted engine and starts no loop,
      so the component is initialised with nothing animating it. */
  lemma StaleFlagSuppressesLoop()
    ensures var s := Run(Start(true, DemoSettings, DemoCanvas),
                         [Resize(300.0, 150.0), ImageReady([]), Teardown, Mount(true), ImageReady([])]);
      && s.initialized && s.proton.Some? && s.subscribed && s.loops == {}
  {
    var s0 := Start(true, DemoSettings, DemoCanvas);
    var s2 := Step(Step(s0, Resize(300.0, 150.0)), ImageReady([]));
    var s3 := Step(s2, Teardown);
    LoadThenTeardownKeepsFlag();
    assert !Blank(s3.canvas) && Palette(s3.config.colors).Ok?;
    RemountWithStaleFlag(s3, []);
    RunFive(s0, Resize(300.0, 150.0), ImageReady([]), Teardown, Mount(true), ImageReady([]));
  }

  /** A resize to a canvas less than a pixel wide, right after the first
      commit: the load that completes next unregisters the emitter before
      `configureEmitter` throws on the blank canvas, so the emitter is left
      unregistered and without a spawn zone and no loop starts. The throw
      stores no handlers and does not set `isInitialized`, so the component
      stays uninitialised. */
  lemma BlankCanvasLeavesEmitterUnregistered()
    ensures var s := Run(Start(true, DemoSettings, DemoCanvas), [Resize(0.5, 150.0), ImageReady([])]);
      && s.proton == Some(Engine([])) && s.emitter.Some? && s.emitter.value.initializes == []
      && s.handlers.None? && !s.initialized && s.loops == {}
  {
    var s0 := Start(true, DemoSettings, DemoCanvas);
    var s1 := Step(s0, Resize(0.5, 150.0));
    assert s1.canvas == Canvas(0.0, 150.0) && s1.pendingLoads == 2 by {
      assert PixelSize(0.5) == 0.0;
    }
    assert s1.emitter.Some? && s1.emitter.value.initializes == [] && s1.proton == Some(Engine([]));
    assert s1.loops == {} && !s1.initialized && s1.handlers.None?;
    RunTwo(s0, Resize(0.5, 150.0), ImageReady([]));
  }

  /** The same blank-canvas load on a component already initialised: the
      throw leaves `isInitialized` and the stored handlers as they were, so
      the component stays initialised with handlers for an emitter the engine
      no longer holds, and nothing animates it. */
  lemma BlankCanvasKeepsStaleHandlers()
    ensures var s := Run(Start(true, DemoSettings, DemoCanvas), [ImageReady([]), Resize(0.5, 150.0), ImageReady([])]);
      && s.proton == Some(Engine([])) && s.emitter.Some?
      && s.initialized && s.handlers == Some(HandlerRef(FadeOut, s.emitter.value.id))
      && s.handlers.value.emitterId !in s.proton.value.emitters
      && s.loops == {}
  {
    var s0 := Start(true, DemoSettings, DemoCanvas);
    var id := s0.emitter.value.id;
    var s1 := Step(s0, ImageReady([]));
    assert s1.initialized && s1.handlers == Some(HandlerRef(FadeOut, id)) && s1.emitter.Some? && s1.emitter.value.id == id
        && s1.proton == Some(Engine([id])) && s1.resizable && s1.pendingLoads == 0 by {
      assert s0.proton == Some(Engine([])) && s0.emitter.Some? && s0.pendingLoads == 1 && !s0.subscribed
          && s0.canvas == DemoCanvas && s0.config == DemoSettings && s0.resizable;
      var c := ConfigureEmitter(s0.emitter.value, DemoCanvas, DemoSettings);
      assert c.Configured? && c.emitter.id == id;
      assert Unregister([], id) == [] && [] + [id] == [id];
      assert s1 == StartLoop(Ready(s0.(pendingLoads := 0), Engine([]), c.emitter, []));
    }
    var s2 := Step(s1, Resize(0.5, 150.0));
    assert && s2.canvas == Canvas(0.0, 150.0) && s2.pendingLoads == 1 && s2.loops == {}
        && s2.initialized && s2.handlers == s1.handlers && s2.emitter.Some? && s2.emitter.value.id == id
        && s2.proton == Some(Engine([id])) by {
      assert PixelSize(0.5) == 0.0;
    }
    var s3 := Step(s2, ImageReady([]));
    assert s3.proton == Some(Engine([])) && s3.emitter.Some? && s3.emitter.value.id == id
        && s3.initialized && s3.handlers == s1.handlers && s3.loops == {} by {
      assert [id][1..] == [] && Unregister([id], id) == [];
    }
    RunThree(s0, ImageReady([]), Resize(0.5, 150.0), ImageReady([]));
  }
}

=== FILE: handlers.dfy ===
/** The per-animation handlers of `animationHandlersMapByAnimation`
    (src/hooks/configureEmitter.ts): `initialize`, `trigger` and `reset`,
    acting on the emitter's particle collection.

    The engine's collection operations are abstract: `removeAllParticles`
    empties the collection and `emit('once')` appends one batch of freshly
    initialised particles, the batch being an input. */
module Handlers {
  import opened Behaviours

  /** The two animations of the component. */
  datatype Animation = FadeIn | FadeOut

  /** The three handlers each animation provides. */
  datatype Handler = Initialize | Trigger | Reset

  /** `emitter.removeAllParticles()`. */
  function Clear(ps: seq<Particle>): seq<Particle>
  {
    []
  }

  /** `emitter.emit('once')`: one batch of new particles joins the collection. */
  function Emit(ps: seq<Particle>, batch: seq<Particle>): seq<Particle>
  {
    ps + batch
  }

  /** `emitter.particles.forEach(f)` with `f` writing fields of each particle. */
  function ForEach(ps: seq<Particle>, f: Particle -> Particle): (r: seq<Particle>)
    ensures |r| == |ps|
    ensures forall i :: 0 <= i < |ps| ==> r[i] == f(ps[i])
  {
    seq(|ps|, i requires 0 <= i < |ps| => f(ps[i]))
  }

  /** What the fadeOut trigger writes into each particle. */
  function StartSpread(q: Particle): Particle
  {
    q.(shouldSpread := true, spreadFactor := 0.0, alpha := 1.0)
  }

  /** What the fadeOut reset writes into each particle it visits. */
  function RestoreOrbit(q: Particle): Particle
  {
    q.(shouldSpread := false, spreadFactor := 1.0, alpha := 0.0)
  }

  /** Running handler `h` of animation `kind` on the collection `ps`, with
      `batch` the particles an `emit('once')` would add. The contract states
      each handler's net effect. */
  function Handle(kind: Animation, h: Handler, ps: seq<Particle>, batch: seq<Particle>): (r: seq<Particle>)
    ensures kind == FadeIn && h == Initialize ==> r == ps
    ensures kind == FadeIn && h == Trigger ==> r == batch
    ensures kind == FadeIn && h == Reset ==> r == []
    ensures kind == FadeOut && h == Initialize ==> |r| == |ps| + |batch| && r[..|ps|] == ps && r[|ps|..] == batch
    ensures kind == FadeOut && h == Trigger ==>
      && |r| == |ps|
      && (forall i :: 0 <= i < |ps| ==>
            r[i].shouldSpread && r[i].spreadFactor == 0.0 && r[i].alpha == 1.0
            && r[i] == ps[i].(shouldSpread := r[i].shouldSpread, spreadFactor := r[i].spreadFactor, alpha := r[i].alpha))
    ensures kind == FadeOut && h == Reset ==> r == batch
  {
    match (kind, h)
    case (FadeIn, Initialize) => ps
    case (FadeIn, Trigger) => Emit(Clear(ps), batch)
    case (FadeIn, Reset) => Clear(ps)
    case (FadeOut, Initialize) => Emit(ps, batch)
    case (FadeOut, Trigger) => ForEach(ps, StartSpread)
    case (FadeOut, Reset) => Emit(ForEach(Clear(ps), RestoreOrbit), batch)
  }

  /** The fadeOut trigger emits nothing, so triggering twice is triggering
      once, whatever batch either call would have had. */
  lemma TriggerIdempotent(ps: seq<Particle>, b1: seq<Particle>, b2: seq<Particle>)
    ensures Handle(FadeOut, Trigger, Handle(FadeOut, Trigger, ps, b1), b2) == Handle(FadeOut, Trigger, ps, b1)
  {
    var once := Handle(FadeOut, Trigger, ps, b1);
    var twice := Handle(FadeOut, Trigger, once, b2);
    assert |twice| == |once|;
    forall i | 0 <= i < |once|
      ensures twice[i] == once[i]
    {
      assert twice[i] == StartSpread(once[i]);
    }
  }

  /** The fadeIn trigger restarts the animation: what it leaves does not
      depend on the collection it starts from, only on the fresh batch. A
      second trigger therefore replaces the first one's particles. */
  lemma FadeInTriggerRestarts(ps: seq<Particle>, b1: seq<Particle>, b2: seq<Particle>)
    ensures Handle(FadeIn, Trigger, Handle(FadeIn, Trigger, ps, b1), b2) == Handle(FadeIn, Trigger, ps, b2)
    ensures forall qs :: Handle(FadeIn, Trigger, qs, b2) == Handle(FadeIn, Trigger, ps, b2)
  {
  }

  /** A reset does not depend on the collection it starts from: whatever was
      triggered before, resetting gives the same particles. */
  lemma ResetForgetsCollection(kind: Animation, ps: seq<Particle>, qs: seq<Particle>, batch: seq<Particle>)
    ensures Handle(kind, Reset, ps, batch) == Handle(kind, Reset, qs, batch)
  {
  }

  /** In particular a reset after a trigger is a plain reset. */
  lemma ResetUndoesTrigger(kind: Animation, ps: seq<Particle>, b1: seq<Particle>, b2: seq<Particle>)
    ensures Handle(kind, Reset, Handle(kind, Trigger, ps, b1), b2) == Handle(kind, Reset, ps, b2)
  {
    ResetForgetsCollection(kind, Handle(kind, Trigger, ps, b1), ps, b2);
  }

  /** With `removeAllParticles` taken as emptying the collection at once (the
      `Clear` abstraction), the fadeOut reset's per-particle writes run over
      an empty collection, so the new batch keeps whatever spread flag,
      spread factor and alpha it arrived with. */
  lemma FadeOutResetWritesNothing(ps: seq<Particle>, batch: seq<Particle>)
    ensures forall i :: 0 <= i < |batch| ==>
      var q := Handle(FadeOut, Reset, ps, batch)[i];
      q.shouldSpread == batch[i].shouldSpread && q.spreadFactor == batch[i].spreadFactor && q.alpha == batch[i].alpha
  {
  }

  /** After a fadeOut trigger every particle takes the spreading branch on its
      next tick. */
  lemma FadeOutTriggerThenTickSpreads(s: Setup, m: Maths, j: Jitter, ps: seq<Particle>, batch: seq<Particle>, i: nat)
    requires i < |ps|
    ensures var q := Handle(FadeOut, Trigger, ps, batch)[i];
      FadeOutApply(s, m, j, q).p == SpreadMove(s, m, j, q)
  {
  }
}

=== FILE: helpers.dfy ===
/** Geometry helpers of the hook: `clamp` and the font-size fitting rule of
    `createSvgText` (src/hooks/helpers.ts). JavaScript numbers are modelled as
    `real`; the only place where an IEEE special value matters (a division by a
    zero measurement) is modelled explicitly by `Quotient`. */
module Helpers {

  /** Canvas sizes and SVG bounding-box sizes are never negative. */
  type NonNeg = r: real | 0.0 <= r

  function Min(a: real, b: real): real { if a <= b then a else b }

  function Max(a: real, b: real): real { if a >= b then a else b }

  function Abs(a: real): real { if a < 0.0 then -a else a }

  /** `clamp(value, min, max) = Math.min(Math.max(value, min), max)`. */
  function Clamp(v: real, lo: real, hi: real): (r: real)
    ensures r <= hi
    ensures lo <= hi ==> lo <= r
    ensures lo <= v <= hi ==> r == v
    ensures r == v || r == lo || r == hi
  {
    Min(Max(v, lo), hi)
  }

  /** Clamping twice is clamping once. */
  lemma ClampIdempotent(v: real, lo: real, hi: real)
    ensures Clamp(Clamp(v, lo, hi), lo, hi) == Clamp(v, lo, hi)
  {
  }

  /** With an empty interval the outer `Math.min` wins: the result is `hi`. */
  lemma ClampInverted(v: real, lo: real, hi: real)
    requires hi < lo
    ensures Clamp(v, lo, hi) == hi
  {
  }

  /** On a non-empty interval the clamped value is the point of [lo, hi]
      nearest to `v`. */
  lemma ClampIsNearest(v: real, lo: real, hi: real, y: real)
    requires lo <= y <= hi
    ensures lo <= Clamp(v, lo, hi) <= hi
    ensures Abs(Clamp(v, lo, hi) - v) <= Abs(y - v)
  {
  }

  /** The value of a JavaScript division `a / b` of two non-negative numbers:
      a finite ratio, `Infinity` (a positive number over zero) or `NaN` (0/0). */
  datatype Quotient = Finite(v: real) | PosInfinity | NotANumber

  function Divide(a: NonNeg, b: NonNeg): (q: Quotient)
    ensures q.Finite? <==> b > 0.0
    ensures q.Finite? ==> 0.0 <= q.v && q.v * b == a
    ensures q.NotANumber? <==> a == 0.0 && b == 0.0
  {
    if b > 0.0 then Finite(a / b)
    else if a > 0.0 then PosInfinity
    else NotANumber
  }

  /** JavaScript's `>`: false whenever either side is `NaN`. */
  predicate Greater(a: Quotient, b: Quotient)
  {
    match (a, b)
    case (Finite(x), Finite(y)) => x > y
    case (PosInfinity, Finite(_)) => true
    case _ => false
  }

  /** Share of the canvas the rendered text may take on its binding axis. */
  const FillShare: real := 0.8

  /** The font size `createSvgText` chooses for a canvas of `width` x `height`
      and a text whose bounding box, measured at 100px, is `boxWidth` x
      `boxHeight`. A finite number divided by `Infinity` is 0. */
  function FontSize(width: NonNeg, height: NonNeg, boxWidth: NonNeg, boxHeight: NonNeg): (size: NonNeg)
    ensures size <= FillShare * height
  {
    var textRatio := Divide(boxWidth, boxHeight);
    var canvasRatio := Divide(width, height);
    if Greater(textRatio, canvasRatio) then
      if textRatio.PosInfinity? then 0.0 else width * FillShare / textRatio.v
    else
      height * FillShare
  }

  /** For measurable sizes: the width branch is taken exactly when the text is
      relatively wider than the canvas; a tie takes the height branch. */
  lemma FontSizeBranches(width: NonNeg, height: NonNeg, boxWidth: NonNeg, boxHeight: NonNeg)
    requires height > 0.0 && boxHeight > 0.0
    ensures boxWidth / boxHeight > width / height ==>
      FontSize(width, height, boxWidth, boxHeight) == FillShare * width / (boxWidth / boxHeight)
    ensures boxWidth / boxHeight <= width / height ==>
      FontSize(width, height, boxWidth, boxHeight) == FillShare * height
  {
  }

  /** For positive sizes the chosen size is the largest one that fits both
      axes: the text's height stays within 80% of the canvas height and its
      width within 80% of the canvas width, and one of the two is tight. */
  lemma FontSizeIsLargestFit(width: NonNeg, height: NonNeg, boxWidth: NonNeg, boxHeight: NonNeg)
    requires width > 0.0 && height > 0.0 && boxWidth > 0.0 && boxHeight > 0.0
    ensures FontSize(width, height, boxWidth, boxHeight) <= FillShare * height
    ensures FontSize(width, height, boxWidth, boxHeight) * boxWidth <= FillShare * width * boxHeight
    ensures FontSize(width, height, boxWidth, boxHeight) == FillShare * height
         || FontSize(width, height, boxWidth, boxHeight) * boxWidth == FillShare * width * boxHeight
    ensures FontSize(width, height, boxWidth, boxHeight)
         == Min(FillShare * height, FillShare * width * boxHeight / boxWidth)
  {
    var t := boxWidth / boxHeight;
    var c := width / height;
    var size := FontSize(width, height, boxWidth, boxHeight);
    assert t * boxHeight == boxWidth && c * height == width;
    if t > c {
      assert size == FillShare * width / t;
      WidthBranchFit(width, height, boxWidth, boxHeight, t, c, size);
    } else {
      HeightBranchFit(width, height, boxWidth, boxHeight, t, c);
    }
  }

  /** The width branch: the text's width is tight and its height has room. */
  lemma WidthBranchFit(width: real, height: real, boxWidth: real, boxHeight: real, t: real, c: real, size: real)
    requires width > 0.0 && height > 0.0 && boxWidth > 0.0 && boxHeight > 0.0
    requires t * boxHeight == boxWidth && c * height == width && t > c
    requires size == FillShare * width / t
    ensures size < FillShare * height
    ensures size * boxWidth == FillShare * width * boxHeight
    ensures size == FillShare * width * boxHeight / boxWidth
  {
    assert size * t == FillShare * width;
    assert width < t * height by {
      assert c * height < t * height;
    }
    assert size * t < FillShare * t * height;
    assert size * boxWidth == size * t * boxHeight;
  }

  /** The height branch: the text's height is tight and its width has room. */
  lemma HeightBranchFit(width: real, height: real, boxWidth: real, boxHeight: real, t: real, c: real)
    requires width > 0.0 && height > 0.0 && boxWidth > 0.0 && boxHeight > 0.0
    requires t * boxHeight == boxWidth && c * height == width && t <= c
    ensures FillShare * height * boxWidth <= FillShare * width * boxHeight
    ensures FillShare * height <= FillShare * width * boxHeight / boxWidth
  {
    assert t * height <= c * height;
    assert FillShare * height * boxWidth == FillShare * (t * height) * boxHeight;
  }

  /** An empty text measures 0 x 0; 0/0 is `NaN`, so the comparison fails and
      the height branch is taken. */
  lemma FontSizeEmptyText(width: NonNeg, height: NonNeg)
    ensures FontSize(width, height, 0.0, 0.0) == FillShare * height
  {
  }

  /** A canvas of zero height gets font size 0, whatever the text. */
  lemma FontSizeFlatCanvas(width: NonNeg, boxWidth: NonNeg, boxHeight: NonNeg)
    ensures FontSize(width, 0.0, boxWidth, boxHeight) == 0.0
  {
  }

  /** Scaling the canvas by k > 0 keeps its ratio, so the same branch is
      taken, and scales the size by k. */
  lemma FontSizeScalesWithCanvas(width: NonNeg, height: NonNeg, boxWidth: NonNeg, boxHeight: NonNeg, k: real)
    requires k > 0.0
    ensures Divide(k * width, k * height) == Divide(width, height)
    ensures FontSize(k * width, k * height, boxWidth, boxHeight) == k * FontSize(width, height, boxWidth, boxHeight)
  {
    var textRatio := Divide(boxWidth, boxHeight);
    DivideScales(width, height, k);
    if Greater(textRatio, Divide(width, height)) && textRatio.Finite? {
      ScaledShare(width, textRatio.v, k);
    }
  }

  /** Only the text's aspect ratio matters: scaling its measured box by k > 0
      leaves the size unchanged. */
  lemma FontSizeDependsOnTextRatio(width: NonNeg, height: NonNeg, boxWidth: NonNeg, boxHeight: NonNeg, k: real)
    requires k > 0.0
    ensures FontSize(width, height, k * boxWidth, k * boxHeight) == FontSize(width, height, boxWidth, boxHeight)
  {
    DivideScales(boxWidth, boxHeight, k);
  }

  /** Scaling both operands of a division by k > 0 does not change it, even
      when the divisor is 0. */
  lemma DivideScales(a: NonNeg, b: NonNeg, k: real)
    requires k > 0.0
    ensures Divide(k * a, k * b) == Divide(a, b)
  {
    MulNonNegReal(k, a);
    MulNonNegReal(k, b);
    if b > 0.0 {
      var u := a / b;
      assert u * b == a;
      assert u * (k * b) == k * a;
      PositiveProduct(k, b);
      assert (k * a) / (k * b) == u;
    } else {
      assert k * b == 0.0;
      if a > 0.0 {
        PositiveProduct(k, a);
      } else {
        assert k * a == 0.0;
      }
    }
  }

  lemma MulNonNegReal(k: real, a: real)
    requires k > 0.0 && a >= 0.0
    ensures k * a >= 0.0
  {
  }

  lemma PositiveProduct(k: real, a: real)
    requires k > 0.0 && a > 0.0
    ensures k * a > 0.0
  {
  }

  lemma ScaledShare(width: real, t: real, k: real)
    requires t > 0.0
    ensures k * width * FillShare / t == k * (width * FillShare / t)
  {
    var u := width * FillShare / t;
    assert u * t == width * FillShare;
    assert (k * u) * t == k * width * FillShare;
  }
}

=== FILE: wrappers.dfy ===
/** Optional values, for the hook's nullable refs. */
module Wrappers {

  datatype Option<T> = None | Some(value: T)
}
